=== FILE: README.md ===
# Food delivery backend: order lifecycle, order and menu reconciliation

A Dafny model of the logic of the `restaurants` app of a Django food
delivery backend. It covers:

- **Order status actions.** `update_status` moves an order one step along
  Picked, Cooking, Ready, On the way, Delivered and stamps the time of the
  status it enters. `cancel_order` cancels an order that is not yet on the
  way, and otherwise refuses with "Can't cancel this order".
- **Order composition.** Creating or updating an order stores the
  submitted `(item_size, count)` pairs as the order's lines. It then saves
  `total_price` at the prices of that moment. The stored total is a
  snapshot, while `get_total_price()` is live.
- **Menu composition.** Creating an item inserts one size-detail row per
  submitted `(size, price)`. Updating an item reprices or creates a row per
  pair, then deletes every size-detail row it did not touch, and turns a
  refused (PROTECTed) delete into a validation error.
- **The store.** The tables of the initial migration are held in memory.
  The store's validity invariant collects the `unique_together` constraints
  and the foreign keys. Every delete follows its `on_delete` rule: CASCADE
  removes the dependants, and PROTECT refuses the whole delete.
- **The `post_save` hook on restaurants**, which authorises the owner when
  nobody is authorised.
- **The phone validator** `^\+?1?\d{9,15}$` and the upload-path builder
  `media_file_name`, together with its two uses `item_images` and
  `restaurant_images`.

The modules follow the program:

| module | file | what it holds |
|---|---|---|
| `Errors` | errors.dfy | `Option`, `Result`, and the three failures the app raises |
| `Schema` | schema.dfy | the rows of each table, the status constants and the defaults |
| `Store` | store.dfy | the tables, their constraints, the inserts, saves and deletes |
| `Pricing` | pricing.dfy | the sums behind `get_total_price` |
| `Orders` | orders.dfy | order create and update, and the snapshot |
| `Menu` | menu.dfy | item create and update, and the size reconciliation |
| `Lifecycle` | lifecycle.dfy | the advance and cancel actions |
| `Signals` | signals.dfy | the owner hook |
| `Phone` | phone.dfy | the phone validator |
| `MediaPaths` | media_paths.dfy | `os.path.splitext` and the upload path |

An operation that can fail returns a `Result`. An operation that can fail
after it has already written returns an `Outcome`: the store as it is left,
together with the result. With Django's default, non-atomic requests these
views run outside a transaction, so writes made before an exception stay in
place, and the model keeps them.

Where the sources disagree, the model follows the views, the initial
migration and the tests rather than `models.py`. `models.py` is an older
revision of the schema: it has no size-detail table, orders carry a
count-less `total_price` property, and `ItemCategory` stands where the
migration has `Category`. Order timestamps other than `cooked_at` appear in
the views and the tests but not in the migration; the model follows the
views.

One would expect an item update to delete only the item's own rows whose
size was dropped, and a refused update to persist nothing. The code deletes
across all items, and a refused update still leaves its repricing and its
new rows in place. The model follows the code. The per-item variant is kept
as `Menu.ItemUpdateScoped` (see Findings).

## Model

| member | source | states |
|---|---|---|
| Schema.StatusChoicesShape | food_delivery_app/restaurants/models.py:73-86 | the six status constants are distinct and listed in order one apart; `len(STATUS_CHOICES) - 1` is Delivered; a value is a status exactly when it lies in 1..6 |
| Lifecycle.Advance | food_delivery_app/restaurants/views.py:127-138 | below Delivered, the status rises by exactly one and only the stamp of the entered status is set to `now`; at Delivered or Cancelled the order is returned unchanged; customer, restaurant, address and total never change |
| Lifecycle.Cancel | food_delivery_app/restaurants/views.py:140-145 | succeeds if and only if the status is below On the way, and then sets Cancelled and changes nothing else; otherwise fails with a ValidationError carrying "Can't cancel this order" |
| Lifecycle.AdvanceStampsNextStatus | food_delivery_app/restaurants/views.py:127-138 | from statuses 1..4, advancing enters the next status, sets that status's stamp to `now` and keeps the other three stamps |
| Lifecycle.TerminalStatuses | food_delivery_app/restaurants/views.py:127-145 | at Delivered and Cancelled, advancing is a no-op and cancelling is refused with the fixed message |
| Lifecycle.ActionsKeepValidStatus | food_delivery_app/restaurants/views.py:127-145 | both actions keep the status among the six choices; advancing never lowers it, and a successful cancel raises it |
| Lifecycle.AdvanceFromPickedToDelivered | food_delivery_app/restaurants/tests/test_views.py:513-550 | a fresh Picked order advanced four times is Delivered, with each stamp holding its own step's time; a fifth advance changes nothing |
| Signals.AddUsersToRestaurant | food_delivery_app/restaurants/signals.py:8-10 | an empty users set becomes exactly `{owner}`; a non-empty one is left alone, even without the owner; no other field changes |
| Signals.HookAddsOnly | food_delivery_app/restaurants/signals.py:8-10 | the hook never removes a user and always leaves somebody authorised; the owner is authorised afterwards if and only if the set was empty or already held the owner |
| Signals.HookIdempotent | food_delivery_app/restaurants/signals.py:8-10 | running the hook on its own result changes nothing |
| Phone.IsValidPhone | food_delivery_app/restaurants/models.py:21 | a backtracking-free decision procedure for the pattern; its own contract only says that accepted strings have at least nine characters, and `Phone.ValidPhoneIffPattern` states the full language |
| Phone.ValidPhoneIffPattern | food_delivery_app/restaurants/models.py:21 | the validator accepts a string if and only if it is an optional '+', an optional '1', then 9 to 15 decimal digits and nothing more |
| Phone.AcceptedPhoneShape | food_delivery_app/restaurants/models.py:21 | an accepted string is all digits apart from at most a leading '+', and holds 9 to 16 digits |
| Phone.RejectedPhones | food_delivery_app/restaurants/models.py:21 | fewer than nine characters, or any character other than a digit or a leading '+', means rejection |
| Phone.ExamplePhoneAccepted | food_delivery_app/restaurants/tests/test_views.py:30-42 | the number "00201012345678" used when creating restaurants is accepted |
| Phone.SixteenDigitsOnlyAfterOne | food_delivery_app/restaurants/models.py:21-22 | sixteen digits pass when the first is the optional '1', despite the message's "up to 15 digits"; sixteen digits starting with another digit, and eight digits, are refused |
| MediaPaths.SplitExt | food_delivery_app/core/utils.py:10 | `name + ext` is the file name; a non-empty `ext` starts at the last '.' of the base name, which has a non-dot character before it; an empty `ext` means no position qualifies |
| MediaPaths.SplitExtAt | food_delivery_app/core/utils.py:10 | whenever a position qualifies as the start of an extension, the split is made exactly there |
| MediaPaths.ExtensionIsLastDot | food_delivery_app/core/utils.py:10 | an extension starts at the last '.', after the last '/', with a non-dot character of the base name before it |
| MediaPaths.SplitExtLastDot | food_delivery_app/core/utils.py:10 | "a.tar.gz" splits into "a.tar" and ".gz" |
| MediaPaths.SplitExtHiddenFile | food_delivery_app/core/utils.py:10 | ".bashrc" has no extension |
| MediaPaths.SplitExtDotInDirectory | food_delivery_app/core/utils.py:10 | a '.' in a directory name does not start an extension |
| MediaPaths.Decimal | food_delivery_app/core/utils.py:13 | the container id is rendered as a non-empty string of decimal digits with no leading zero unless the id is 0, as `str` renders an integer |
| MediaPaths.DecimalRoundTrip | food_delivery_app/core/utils.py:13 | reading the rendered id back as a decimal number gives the id |
| MediaPaths.MediaFileName | food_delivery_app/core/utils.py:7-19 | the path starts with `directory/container_<id>/`, ends with the file's extension, and is exactly the file name plus the folder, the '-' and the five suffix characters long |
| MediaPaths.MediaFileNameKeepsExtension | food_delivery_app/core/utils.py:10-17 | splitting the generated path gives back the original extension, with stem `directory/container_<id>/<name>-<suffix>` |
| MediaPaths.ItemImagePath | food_delivery_app/restaurants/models.py:13-14 | item images go under `items/container_<restaurant id>/` and keep their extension |
| MediaPaths.RestaurantImagePath | food_delivery_app/restaurants/models.py:17-18 | restaurant logos go under `restaurant/container_<owner id>/` and keep their extension |
| Store.EmptyIsValid | food_delivery_app/restaurants/migrations/0001_initial.py:19-164 | empty tables meet every constraint of the migration |
| Store.InsertCategory | food_delivery_app/restaurants/migrations/0001_initial.py:160-163 | the insert succeeds if and only if the restaurant has no category of that name; it then adds exactly one fresh row, and otherwise raises IntegrityError |
| Store.InsertItemSize | food_delivery_app/restaurants/migrations/0001_initial.py:156-159 | the insert succeeds if and only if the restaurant has no item size of that name; it then adds exactly one fresh row, and otherwise raises IntegrityError |
| Store.InsertSizeDetail | food_delivery_app/restaurants/migrations/0001_initial.py:152-155 | the insert succeeds if and only if the item has no row in that size; it then adds exactly one fresh row, and otherwise raises IntegrityError |
| Store.InsertItem | food_delivery_app/restaurants/migrations/0001_initial.py:33-49 | an item always inserts under a fresh key that no size-detail row uses yet, and nothing else changes |
| Store.InsertOrder | food_delivery_app/restaurants/migrations/0001_initial.py:79-97 | an order always inserts under a fresh key that no line uses yet, and nothing else changes |
| Store.SaveItem | food_delivery_app/restaurants/views.py:79 | only the item's own row changes, and the constraints still hold |
| Store.UpdatePrice | food_delivery_app/restaurants/views.py:69 | only that row's price changes: same keys, same item and size, other rows identical |
| Store.SaveOrder | food_delivery_app/restaurants/views.py:101 | only that order's row changes, and the constraints still hold |
| Store.SaveLines | food_delivery_app/restaurants/migrations/0001_initial.py:127-136 | any line table whose lines point at existing orders and rows keeps the store valid |
| Store.Select | food_delivery_app/restaurants/views.py:110 | filtering the lines keeps only the lines of the order (or only the others) and never lengthens the table |
| Store.SelectMembers | food_delivery_app/restaurants/views.py:110 | a line survives the filter if and only if it was in the table and matches the filter |
| Store.SelectOtherOrder | food_delivery_app/restaurants/views.py:110 | dropping one order's lines leaves every other order's lines, in order |
| Store.SelectDropsAppended | food_delivery_app/restaurants/views.py:110-112 | dropping an order's lines again, after its new lines were appended, gives back the other orders' lines |
| Store.ReferencedRows | food_delivery_app/restaurants/migrations/0001_initial.py:127-131 | exactly the rows of the doomed set that some order line refers to |
| Store.DeleteSizeDetails | food_delivery_app/restaurants/migrations/0001_initial.py:127-131 | the delete is refused if and only if an order line refers to a doomed row, and then with a ProtectedError whose payload is abstracted to exactly those rows; otherwise exactly the doomed rows disappear |
| Store.DeleteItem | food_delivery_app/restaurants/migrations/0001_initial.py:75 | deleting an item CASCADEs to exactly its size-detail rows, and is refused if and only if an order line refers to one of them |
| Store.DeleteItemSize | food_delivery_app/restaurants/migrations/0001_initial.py:76 | deleting an item size CASCADEs to exactly the rows priced in it, and is refused if and only if an order line refers to one of them |
| Store.DeleteCategory | food_delivery_app/restaurants/migrations/0001_initial.py:42 | deleting a category is refused if and only if an item uses it; otherwise only that category goes |
| Store.DeleteOrder | food_delivery_app/restaurants/migrations/0001_initial.py:132-136 | deleting an order CASCADEs to all of its lines, and every other order keeps its lines |
| Pricing.LinesTotalAppend | food_delivery_app/restaurants/views.py:97-100 | the total of two runs of lines is the sum of their totals |
| Pricing.LinesTotalReprice | food_delivery_app/restaurants/views.py:69 | repricing one row moves any total by the price difference times the units of that row, and by nothing else |
| Orders.CurrentTotal | food_delivery_app/restaurants/views.py:100 | `get_total_price()`: the live total is the sum of price × count over the order's lines at the current prices; its contract is carried by `Orders.MaterializedTotal`, `Orders.LiveTotalFollowsPrice` and `Orders.OrderCreateLines` |
| Orders.Materialize | food_delivery_app/restaurants/views.py:97-98 | one line per submitted pair, in order, for the given order; an omitted count takes the default 1 (migration line 54) |
| Orders.MaterializedTotal | food_delivery_app/restaurants/views.py:97-100 | pricing the inserted lines gives the sum of price times count over the submitted pairs |
| Orders.AppendedLines | food_delivery_app/restaurants/views.py:96-98 | after appending a fresh order's lines, its lines are exactly the appended ones, and every other order keeps its lines |
| Orders.OrderCreate | food_delivery_app/restaurants/views.py:94-102 | the order gets a fresh key and is stored with status Picked (migration line 86), no stamps, and total equal to Σ price × count at the current prices; its lines are appended after all existing lines; older orders are unchanged |
| Orders.OrderCreateLines | food_delivery_app/restaurants/views.py:94-102 | after creation, the order's lines are exactly the submitted pairs, the stored total equals the live total, and every other order keeps its lines |
| Orders.ReplaceLines | food_delivery_app/restaurants/views.py:110-112 | the order's lines become exactly the submitted pairs, and every other order keeps its lines |
| Orders.OrderUpdate | food_delivery_app/restaurants/views.py:104-116 | the order's lines become exactly the submitted pairs and the other orders' lines are unchanged; the stored total is recomputed as Σ price × count and equals the live total; only the address and the total of this order change |
| Orders.OrderUpdateIdempotent | food_delivery_app/restaurants/tests/test_views.py:487-511 | submitting the same update twice leaves the store exactly as submitting it once |
| Orders.StoredTotalIsSnapshot | food_delivery_app/restaurants/views.py:100 | changing a price leaves every stored total as it was |
| Orders.LiveTotalFollowsPrice | food_delivery_app/restaurants/tests/test_views.py:433-456 | after a price change, an order's live total moves by the price difference times the units of that row the order holds |
| Orders.RepricedLinesTotal | food_delivery_app/restaurants/tests/test_views.py:433-456 | the same movement, for any lines priced against the store |
| Orders.RepriceAfterOrderExample | food_delivery_app/restaurants/tests/test_views.py:433-456 | three units at 100 are stored as 300, equal to the live total; after the price becomes 600 the stored total is 300 and the live total 1800 |
| Orders.RepriceSingleLine | food_delivery_app/restaurants/tests/test_views.py:451-456 | for an order holding three units of a row priced 100, repricing to 600 keeps the stored total and makes the live total 1800 |
| Orders.CreateOrderExample | food_delivery_app/restaurants/tests/test_views.py:406-431 | 1·100 + 2·200 + 3·300 + 4·400 is stored as 3000, the order is Picked, and it has four lines |
| Orders.UpdateOrderExample | food_delivery_app/restaurants/tests/test_views.py:487-511 | whatever lines the order had, resubmitting (a, 4), (b, 3) at prices 100 and 200 leaves exactly those two lines and a stored total of 1000 |
| Menu.LastPrice | food_delivery_app/restaurants/views.py:66-73 | the price an update leaves on a size is absent if and only if the size was not submitted |
| Menu.LastPriceIsLast | food_delivery_app/restaurants/views.py:66-73 | that price comes from a pair for the size that no later pair overrides |
| Menu.FindRow | food_delivery_app/restaurants/views.py:67-68 | finds the item's row in the size whenever there is one, and reports none if and only if there is none |
| Menu.Step | food_delivery_app/restaurants/views.py:66-73 | one loop pass: the returned key names a row of the item in the size at the submitted price; that key is the old row of (item, size) if one existed, otherwise a fresh key; every other row is unchanged |
| Menu.ReconcileSizes | food_delivery_app/restaurants/views.py:65-73 | the loop keeps the store valid and returns one key per pair |
| Menu.ReconcileKeeps | food_delivery_app/restaurants/views.py:65-73 | after the loop, the rows are the old rows plus the kept keys; an old row is kept if and only if it belongs to the item and its size was submitted |
| Menu.ReconcileFrame | food_delivery_app/restaurants/views.py:65-73 | rows that are not kept are left exactly as they were |
| Menu.ReconcileKeepsIdentity | food_delivery_app/restaurants/views.py:65-73 | no row changes its item or its size |
| Menu.ReconcilePrices | food_delivery_app/restaurants/views.py:65-73 | each kept key names the item's row in the pair's size, carrying the last price submitted for that size |
| Menu.KeySet | food_delivery_app/restaurants/views.py:76 | the `pk__in` set holds exactly the kept keys |
| Menu.Unkept | food_delivery_app/restaurants/views.py:76 | exactly the rows, of any item, that are not a submitted size of the edited item |
| Menu.ItemUpdate | food_delivery_app/restaurants/views.py:58-80 | succeeds if and only if every order line refers to a row the update keeps; success saves the submitted item fields; failure is a ValidationError whose payload is abstracted to exactly the ordered rows it would have deleted, and the item's fields are not saved; only the item and size-detail tables change |
| Menu.ItemUpdatePrices | food_delivery_app/restaurants/views.py:65-73 | whether or not the delete is refused, every submitted size has a row of the item at its last submitted price |
| Menu.ItemUpdateDeletes | food_delivery_app/restaurants/views.py:76 | after a successful update, an old row survives if and only if it is kept, and every remaining row is a submitted size of the edited item |
| Menu.ItemUpdateRefusedKeepsRows | food_delivery_app/restaurants/views.py:75-78 | a refused update removes nothing: every row it would have deleted is still there, unchanged |
| Menu.Prune | food_delivery_app/restaurants/views.py:75-80 | the delete succeeds if and only if no line refers to a doomed row, and then the item is saved; a refusal becomes a ValidationError and the store stays as the loop left it |
| Menu.OwnUnkept | food_delivery_app/restaurants/views.py:76 | exactly the edited item's rows whose size was not submitted |
| Menu.ItemUpdateScoped | food_delivery_app/restaurants/views.py:58-80 | the corrected update: succeeds if and only if no order line refers to a dropped size of the edited item, with the same error shape and frame as the update as written |
| Menu.ItemUpdateScopedSpares | food_delivery_app/restaurants/views.py:76 | after a successful corrected update, other items' rows are untouched and every new row belongs to the edited item, which keeps exactly its submitted sizes at their last prices |
| Menu.ItemUpdateDeletesOtherItems | food_delivery_app/restaurants/views.py:76 | as written, a successful update removes every row of every other item; the corrected update keeps such a row |
| Menu.OtherItemsOrderBlocksUpdate | food_delivery_app/restaurants/views.py:76-78 | as written, an order of any other item makes the update fail; the corrected update then succeeds |
| Menu.CreateRows | food_delivery_app/restaurants/views.py:54-55 | the creation loop keeps the store valid, fails only with IntegrityError, returns one key per pair on success, and touches only the size-detail table |
| Menu.CreateRowsSucceeds | food_delivery_app/restaurants/views.py:54-55 | creation succeeds if and only if no size is submitted twice and the item has none of the submitted sizes yet |
| Menu.CreateRowsKeepsOld | food_delivery_app/restaurants/views.py:54-55 | existing rows are never modified |
| Menu.CreateRowsAdds | food_delivery_app/restaurants/views.py:54-55 | on success, each pair has its own fresh row holding its size and price |
| Menu.CreateRowsOnlySubmitted | food_delivery_app/restaurants/views.py:54-55 | every row the loop creates, even when it stops early, belongs to the item and prices a submitted size |
| Menu.ItemCreate | food_delivery_app/restaurants/views.py:51-56 | the item is always saved under a fresh key; creation succeeds if and only if the submitted sizes are distinct, and otherwise fails with IntegrityError after the item was saved |
| Menu.ItemCreateRows | food_delivery_app/restaurants/views.py:51-56 | other rows are untouched and every new row belongs to the new item; on success every pair has a row of the new item; every row of the new item prices a submitted size |

## Left out

- The HTTP layer is not modelled: viewset dispatch, routing, serializers, permissions, token authentication, admin and app configuration. Requests arrive as already-validated arguments.
- Foreign keys in a payload are assumed to resolve, so the operations require their targets to exist. This covers submitted sizes, size-detail rows and categories; the serializer that checks them is not part of this model.
- The `get_queryset` restaurant scoping and the order list filter are not modelled; the filter's code is not part of this model.
- Transactions and concurrent requests are not modelled. Each operation runs alone, with no rollback.
- Time and randomness are parameters: `now` stands for `timezone.now()`, and the five-character suffix for `crypto.get_random_string(5)`. The suffix is required to be five ASCII letters or digits.
- The restaurant table's own foreign keys are not modelled: its owner and the CASCADEs from restaurants and users. The `Restaurant` row also carries `name`, `phone` and `address`, which nothing in the model constrains: the phone validator is not applied to the row.
- Orders.OrderUpdate: only `address` is modelled among the order's writable fields; the order serializer is not part of this model, and the tests submit only the address.
- Menu.ItemUpdate: the item's submitted fields are passed as one `Item` value instead of being set one by one.
- Menu.ItemCreate: an omitted price in a pair, which `create(item=item, **item_size)` would fill with the column default of 1, is not modelled; every pair carries an integer price.
- Menu.ItemUpdate: an omitted or null price in a pair, which would rely on the column default of 1 or write NULL, is not modelled; every pair carries an integer price.
- Orders.OrderUpdateIdempotent: equality is up to the line rows' own auto-increment keys, which the model does not store, so the re-inserted lines of the second submission are equal to those of the first.
- The order of `orders_details` is taken to be insertion order; the model ascribes no other ordering to it.
- Phone.IsValidPhone: `\d` is read as the ASCII digits '0'..'9', although Python's `\d` on `str` also accepts other Unicode decimal digits. `$` matching before a trailing newline is not modelled, since input is trimmed upstream.
- The count-less `total_price` property and the older `ItemOrderDetails` shape in `models.py` contradict the migration and the views, and are not modelled.
- MediaPaths.SplitExt: `os.path.splitext` is taken with POSIX path rules (`posixpath`); the Windows rules of `ntpath`, with `\` and drive letters, are not modelled.
- The image files themselves and their storage are not modelled; only the path string is.
- Store.DeleteSizeDetails: the refusal's payload is abstracted to the referenced size-detail keys; Django's ProtectedError carries a message and the referencing order lines (`protected_objects`), which the model does not reproduce because line rows carry no keys here.
- Menu.ItemUpdate: the ValidationError's payload is likewise abstracted to the referenced size-detail keys; Django renders the wrapped ProtectedError's message together with the referencing order lines.
- Store.DeleteCategory: the refusal's payload is abstracted to the keys of the items that still use the category, not Django's message and item objects.
- Integers are unbounded: prices, counts and totals are `int`, and the 32-bit limits of the database columns are not modelled.

## Findings

| source | as written | input that shows it | evidently intended | confidence | as-written member | corrected member |
|---|---|---|---|---|---|---|
| food_delivery_app/restaurants/views.py:76 | the delete after the reconciliation loop excludes only the kept keys, so it removes every other item's size-detail rows | a store with a second item that has a price row; updating the first item deletes that row, and if an order refers to it the update fails | delete only the edited item's rows whose key was not kept | not executed; follows from the code's query | Menu.ItemUpdate, with Menu.ItemUpdateDeletesOtherItems and Menu.OtherItemsOrderBlocksUpdate | Menu.ItemUpdateScoped, with Menu.ItemUpdateScopedSpares |

=== FILE: errors.dfy ===
/** Failure-carrying values shared by every operation of the model.

    The application reports three kinds of failure: a `ValidationError`
    (HTTP 400 with an "errors" body), a `ProtectedError` raised by the
    database layer when a PROTECT foreign key refuses a deletion, and an
    `IntegrityError` raised when an insert would break a unique_together
    constraint. */
module Errors {

  datatype Option<+T> = None | Some(value: T) {

    /** The carried value, or `default` when there is none. */
    function GetOr(default: T): T {
      match this
      case Some(v) => v
      case None => default
    }
  }

  /** What a `ValidationError` carries under its "errors" key. */
  datatype Detail =
    | Message(text: string)
      /** A wrapped ProtectedError, abstracted to the keys it reports (see
          `ProtectedError`). */
    | Protected(rows: set<nat>)

  datatype Error =
    | ValidationError(errors: Detail)
      /** A refused delete, abstracted to a set of primary keys standing for
          what blocks it: for size-detail rows, the doomed rows that order
          lines still refer to; for a category, the items that still use it.
          Django's own exception carries a message and the referencing rows. */
    | ProtectedError(protectedRows: set<nat>)
    | IntegrityError

  datatype Result<+T> = Ok(value: T) | Err(error: Error)
}

=== FILE: lifecycle.dfy ===
/** The order status actions of the orders view: `update_status` (advance
    one step and stamp the time) and `cancel_order`. The clock is the
    parameter `now`. */
module Lifecycle {
  import opened Errors
  import opened Schema

  /** The four lifecycle timestamps of an order. */
  datatype Stamp = CookedAt | ReadyAt | OnTheWayAt | DeliveredAt

  function StampOf(o: Order, k: Stamp): Option<int> {
    match k
    case CookedAt => o.cookedAt
    case ReadyAt => o.readyAt
    case OnTheWayAt => o.onTheWayAt
    case DeliveredAt => o.deliveredAt
  }

  /** Which timestamp records entering status `s`; Picked and Cancelled have none. */
  function StampFor(s: int): Option<Stamp> {
    if s == COOKING then Some(CookedAt)
    else if s == READY then Some(ReadyAt)
    else if s == ONTHEWAY then Some(OnTheWayAt)
    else if s == DELIVERED then Some(DeliveredAt)
    else None
  }

  /** Everything of an order that the status actions never touch. */
  predicate SameContents(a: Order, b: Order) {
    a.customer == b.customer && a.restaurant == b.restaurant
    && a.address == b.address && a.totalPrice == b.totalPrice
  }

  const CANCEL_MESSAGE := "Can't cancel this order"

  /** The advance action: below the last non-cancelled status the status goes
      up by one and the timestamp of the entered status is set to `now`;
      otherwise nothing changes. */
  function Advance(o: Order, now: int): (r: Order)
    ensures SameContents(r, o)
    ensures o.status < DELIVERED ==> r.status == o.status + 1
    ensures o.status >= DELIVERED ==> r == o
    ensures forall k :: StampOf(r, k) == (if o.status < DELIVERED && StampFor(o.status + 1) == Some(k)
                                          then Some(now) else StampOf(o, k))
  {
    StatusChoicesShape();
    if o.status < |STATUS_CHOICES| - 1 then
      var s := o.status + 1;
      if s == COOKING then o.(status := s, cookedAt := Some(now))
      else if s == READY then o.(status := s, readyAt := Some(now))
      else if s == ONTHEWAY then o.(status := s, onTheWayAt := Some(now))
      else if s == DELIVERED then o.(status := s, deliveredAt := Some(now))
      else o.(status := s)
    else
      o
  }

  /** The cancel action: allowed strictly before On the way, refused with the
      fixed message otherwise. */
  function Cancel(o: Order): (r: Result<Order>)
    ensures r.Ok? <==> o.status < ONTHEWAY
    ensures r.Ok? ==> r.value.status == CANCELLED && SameContents(r.value, o)
    ensures r.Ok? ==> forall k :: StampOf(r.value, k) == StampOf(o, k)
    ensures r.Err? ==> r.error == ValidationError(Message(CANCEL_MESSAGE))
  {
    if o.status < ONTHEWAY then Ok(o.(status := CANCELLED))
    else Err(ValidationError(Message(CANCEL_MESSAGE)))
  }

  /** From Picked, Cooking, Ready or On the way, advancing stamps exactly the
      timestamp of the next status and keeps the other three. */
  lemma AdvanceStampsNextStatus(o: Order, now: int)
    requires PICKED <= o.status < DELIVERED
    ensures Advance(o, now).status == o.status + 1
    ensures StampFor(o.status + 1).Some?
    ensures StampOf(Advance(o, now), StampFor(o.status + 1).value) == Some(now)
    ensures forall k :: k != StampFor(o.status + 1).value ==> StampOf(Advance(o, now), k) == StampOf(o, k)
  {
  }

  /** Delivered and Cancelled are terminal: advancing changes nothing and
      cancelling is refused. */
  lemma TerminalStatuses(o: Order, now: int)
    requires o.status == DELIVERED || o.status == CANCELLED
    ensures Advance(o, now) == o
    ensures Cancel(o) == Err(ValidationError(Message(CANCEL_MESSAGE)))
  {
  }

  /** Both actions keep the status among the six choices, and the status never
      goes down. */
  lemma ActionsKeepValidStatus(o: Order, now: int)
    requires IsStatus(o.status)
    ensures IsStatus(Advance(o, now).status) && Advance(o, now).status >= o.status
    ensures Cancel(o).Ok? ==> IsStatus(Cancel(o).value.status) && Cancel(o).value.status > o.status
  {
    StatusChoicesShape();
  }

  /** A freshly created order (status Picked, no stamps), advanced four times,
      reaches Delivered with each stamp holding the time of its own step; a
      fifth advance changes nothing. */
  lemma AdvanceFromPickedToDelivered(o: Order, t1: int, t2: int, t3: int, t4: int, t5: int)
    requires o.status == DEFAULT_STATUS
    requires forall k :: StampOf(o, k) == None
    ensures var o4 := Advance(Advance(Advance(Advance(o, t1), t2), t3), t4);
      && o4.status == DELIVERED
      && o4.cookedAt == Some(t1) && o4.readyAt == Some(t2)
      && o4.onTheWayAt == Some(t3) && o4.deliveredAt == Some(t4)
      && Advance(o4, t5) == o4
  {
    var o1 := Advance(o, t1);
    assert o1.status == COOKING && StampOf(o1, CookedAt) == Some(t1);
    assert StampOf(o1, ReadyAt) == None && StampOf(o1, OnTheWayAt) == None && StampOf(o1, DeliveredAt) == None;
    var o2 := Advance(o1, t2);
    assert StampOf(o2, ReadyAt) == Some(t2) && StampOf(o2, CookedAt) == Some(t1);
    var o3 := Advance(o2, t3);
    assert StampOf(o3, OnTheWayAt) == Some(t3) && StampOf(o3, ReadyAt) == Some(t2);
    var o4 := Advance(o3, t4);
    assert StampOf(o4, DeliveredAt) == Some(t4) && StampOf(o4, OnTheWayAt) == Some(t3);
  }
}

=== FILE: media_paths.dfy ===
/** Upload paths for images: `media_file_name(directory, field)` builds
    `directory/container_<id>/<name>-<suffix><ext>` where `name, ext` is the
    POSIX `os.path.splitext` of the uploaded file name, `<id>` the decimal
    value of the instance's `field`, and `<suffix>` five random characters
    (a parameter here). */
module MediaPaths {
  import opened Schema

  const SUFFIX_LENGTH := 5

  /** The alphabet of the random suffix: ASCII letters and digits. */
  predicate IsSuffixChar(c: char) {
    ('a' <= c <= 'z') || ('A' <= c <= 'Z') || ('0' <= c <= '9')
  }

  predicate IsSuffix(suffix: string) {
    |suffix| == SUFFIX_LENGTH && forall i :: 0 <= i < |suffix| ==> IsSuffixChar(suffix[i])
  }

  /** `str.rfind`: the last index of `c` in `s`, or -1. */
  function LastIndexOf(s: string, c: char): (i: int)
    ensures -1 <= i < |s|
    ensures i >= 0 ==> s[i] == c
    ensures forall k :: i < k < |s| ==> s[k] != c
    decreases |s|
  {
    if |s| == 0 then -1
    else if s[|s| - 1] == c then |s| - 1
    else LastIndexOf(s[..|s| - 1], c)
  }

  /** The leading-dots scan of splitext: whether some character in
      `p[from..dot]` is not a '.'. */
  function NonDotBefore(p: string, from: int, dot: int): (found: bool)
    requires 0 <= from <= dot <= |p|
    ensures found <==> exists k :: from <= k < dot && p[k] != '.'
    decreases dot - from
  {
    if from == dot then false
    else if p[from] != '.' then true
    else NonDotBefore(p, from + 1, dot)
  }

  /** Position `i` starts an extension of `p`: it holds the last '.', after
      the last '/', and the file's base name has a character other than '.'
      before it (so ".bashrc" has no extension). */
  ghost predicate IsExtensionAt(p: string, i: int) {
    && 0 <= i < |p|
    && p[i] == '.'
    && (forall k :: i < k < |p| ==> p[k] != '.' && p[k] != '/')
    && exists j :: 0 <= j < i && p[j] != '.' && forall k :: j <= k < i ==> p[k] != '/'
  }

  /** An extension start is the last '.' of `p`, lies after its last '/',
      and is preceded by a non-dot character of the base name. */
  lemma ExtensionIsLastDot(p: string, i: int)
    requires IsExtensionAt(p, i)
    ensures LastIndexOf(p, '.') == i
    ensures LastIndexOf(p, '/') < i
    ensures NonDotBefore(p, LastIndexOf(p, '/') + 1, i)
  {
    var sep := LastIndexOf(p, '/');
    var j :| 0 <= j < i && p[j] != '.' && forall k :: j <= k < i ==> p[k] != '/';
    assert sep < j;
  }

  /** POSIX `os.path.splitext`: split at the last '.' of the base name unless
      the base name has only dots before it. */
  function SplitExt(p: string): (r: (string, string))
    ensures r.0 + r.1 == p
    ensures r.1 != [] ==> IsExtensionAt(p, |r.0|)
    ensures r.1 == [] ==> forall i :: !IsExtensionAt(p, i)
  {
    var sep := LastIndexOf(p, '/');
    var dot := LastIndexOf(p, '.');
    if dot > sep && NonDotBefore(p, sep + 1, dot) then
      assert p[..dot] + p[dot..] == p;
      var j :| sep + 1 <= j < dot && p[j] != '.';
      assert forall k :: j <= k < dot ==> p[k] != '/';
      (p[..dot], p[dot..])
    else
      assert forall i :: !IsExtensionAt(p, i) by {
        forall i
          ensures !IsExtensionAt(p, i)
        {
          if IsExtensionAt(p, i) {
            ExtensionIsLastDot(p, i);
            assert false;
          }
        }
      }
      (p, "")
  }

  /** A position that qualifies as an extension start is where splitext cuts. */
  lemma SplitExtAt(p: string, i: int)
    requires IsExtensionAt(p, i)
    ensures SplitExt(p) == (p[..i], p[i..])
  {
    var r := SplitExt(p);
    if r.1 == [] {
      assert false;
    }
    ExtensionIsLastDot(p, i);
    ExtensionIsLastDot(p, |r.0|);
    assert r.0 == p[..i];
  }

  /** The character of a decimal digit. */
  function DigitChar(d: nat): (c: char)
    requires d < 10
    ensures '0' <= c <= '9'
  {
    (48 + d) as char
  }

  /** `str(n)` for a primary key. */
  function Decimal(n: nat): (s: string)
    ensures |s| > 0
    ensures forall i :: 0 <= i < |s| ==> '0' <= s[i] <= '9'
    ensures s[0] == '0' <==> n == 0
    decreases n
  {
    if n < 10 then [DigitChar(n)] else Decimal(n / 10) + [DigitChar(n % 10)]
  }

  /** The value of a string of decimal digits. */
  function DecimalValue(s: string): nat
    requires forall i :: 0 <= i < |s| ==> '0' <= s[i] <= '9'
    decreases |s|
  {
    if |s| == 0 then 0 else DecimalValue(s[..|s| - 1]) * 10 + ((s[|s| - 1] as int) - 48)
  }

  /** The rendered key reads back as the key. */
  lemma {:induction false} DecimalRoundTrip(n: nat)
    ensures DecimalValue(Decimal(n)) == n
    decreases n
  {
    var s := Decimal(n);
    if n >= 10 {
      DecimalRoundTrip(n / 10);
      assert s[..|s| - 1] == Decimal(n / 10);
    }
  }

  /** The folder part `directory/container_<id>/`. */
  function Folder(directory: string, containerId: nat): string {
    directory + "/container_" + Decimal(containerId) + "/"
  }

  /** `media_file_name(directory, ...)` applied to an instance whose key
      field holds `containerId`. */
  function MediaFileName(directory: string, containerId: nat, filename: string, suffix: string): (path: string)
    requires IsSuffix(suffix)
    ensures |path| == |Folder(directory, containerId)| + |filename| + 1 + SUFFIX_LENGTH
    ensures path[..|Folder(directory, containerId)|] == Folder(directory, containerId)
    ensures path[|path| - |SplitExt(filename).1|..] == SplitExt(filename).1
  {
    var (name, ext) := SplitExt(filename);
    Folder(directory, containerId) + name + "-" + suffix + ext
  }

  /** No position before a '/' starts an extension. */
  lemma NoExtensionBeforeSlash(p: string, slash: int, i: int)
    requires 0 <= i <= slash < |p| && p[slash] == '/'
    ensures !IsExtensionAt(p, i)
  {
  }

  /** When the file name has an extension, the generated path ends with the
      same one, and it qualifies there too. */
  lemma PathKeepsExtension(stem: string, suffix: string, name: string, ext: string)
    requires IsSuffix(suffix)
    requires ext != [] && IsExtensionAt(name + ext, |name|)
    requires |stem| >= SUFFIX_LENGTH && stem[|stem| - SUFFIX_LENGTH..] == suffix
    ensures IsExtensionAt(stem + ext, |stem|)
  {
    var path := stem + ext;
    var filename := name + ext;
    var e := |stem|;
    assert path[e] == ext[0] == filename[|name|];
    forall k | e < k < |path|
      ensures path[k] != '.' && path[k] != '/'
    {
      assert path[k] == ext[k - e] == filename[k - e + |name|];
    }
    assert path[e - 1] == suffix[SUFFIX_LENGTH - 1];
    assert IsSuffixChar(suffix[SUFFIX_LENGTH - 1]);
    assert forall k :: e - 1 <= k < e ==> path[k] != '/';
  }

  /** When the file name has no extension, neither has the generated path:
      the '-' and the suffix add no dot, and the folder ends with '/'. */
  lemma PathGainsNoExtension(folder: string, name: string, suffix: string)
    requires IsSuffix(suffix)
    requires |folder| > 0 && folder[|folder| - 1] == '/'
    requires forall i :: !IsExtensionAt(name, i)
    ensures forall i :: !IsExtensionAt(folder + name + "-" + suffix, i)
  {
    var path := folder + name + "-" + suffix;
    var off := |folder|;
    assert path[off - 1] == '/';
    forall i | IsExtensionAt(path, i)
      ensures false
    {
      if i < off {
        NoExtensionBeforeSlash(path, off - 1, i);
      }
      if i >= off + |name| {
        assert false;
      }
      assert name[i - off] == path[i];
      forall k | i - off < k < |name|
        ensures name[k] != '.' && name[k] != '/'
      {
        assert name[k] == path[k + off];
      }
      var j :| 0 <= j < i && path[j] != '.' && forall k :: j <= k < i ==> path[k] != '/';
      assert j >= off;
      assert name[j - off] == path[j];
      assert forall k :: j - off <= k < i - off ==> name[k] == path[k + off];
      assert IsExtensionAt(name, i - off);
    }
  }

  /** Splitting the generated path again gives back the original extension,
      and the stem is the folder, the original stem, '-' and the suffix. */
  lemma MediaFileNameKeepsExtension(directory: string, containerId: nat, filename: string, suffix: string)
    requires IsSuffix(suffix)
    ensures SplitExt(MediaFileName(directory, containerId, filename, suffix)).1 == SplitExt(filename).1
    ensures SplitExt(MediaFileName(directory, containerId, filename, suffix)).0
         == Folder(directory, containerId) + SplitExt(filename).0 + "-" + suffix
  {
    var (name, ext) := SplitExt(filename);
    var folder := Folder(directory, containerId);
    var stem := folder + name + "-" + suffix;
    var path := MediaFileName(directory, containerId, filename, suffix);
    assert path == stem + ext;
    if ext != [] {
      assert stem[|stem| - SUFFIX_LENGTH..] == suffix;
      PathKeepsExtension(stem, suffix, name, ext);
      SplitExtAt(path, |stem|);
      assert path[..|stem|] == stem;
      assert path[|stem|..] == ext;
    } else {
      assert name == filename;
      assert folder[|folder| - 1] == '/';
      PathGainsNoExtension(folder, name, suffix);
      assert path == stem;
      var r := SplitExt(path);
      if r.1 != [] {
        assert false;
      }
    }
  }

  /** `item_images`: items are filed under 'items', keyed by their restaurant. */
  function ItemImagePath(item: Item, filename: string, suffix: string): (path: string)
    requires IsSuffix(suffix)
    ensures |path| == |Folder("items", item.restaurant)| + |filename| + 1 + SUFFIX_LENGTH
    ensures path[..|Folder("items", item.restaurant)|] == Folder("items", item.restaurant)
    ensures SplitExt(path).1 == SplitExt(filename).1
  {
    MediaFileNameKeepsExtension("items", item.restaurant, filename, suffix);
    MediaFileName("items", item.restaurant, filename, suffix)
  }

  /** `restaurant_images`: logos are filed under 'restaurant', keyed by the owner. */
  function RestaurantImagePath(restaurant: Restaurant, filename: string, suffix: string): (path: string)
    requires IsSuffix(suffix)
    ensures |path| == |Folder("restaurant", restaurant.owner)| + |filename| + 1 + SUFFIX_LENGTH
    ensures path[..|Folder("restaurant", restaurant.owner)|] == Folder("restaurant", restaurant.owner)
    ensures SplitExt(path).1 == SplitExt(filename).1
  {
    MediaFileNameKeepsExtension("restaurant", restaurant.owner, filename, suffix);
    MediaFileName("restaurant", restaurant.owner, filename, suffix)
  }

  /** Worked split: the last dot of the base name wins. */
  lemma SplitExtLastDot()
    ensures SplitExt("a.tar.gz") == ("a.tar", ".gz")
  {
    var p := "a.tar.gz";
    assert p[0] == 'a' && p[5] == '.' && p[6] == 'g' && p[7] == 'z' && |p| == 8;
    assert forall k :: 0 <= k < 5 ==> p[k] != '/';
    assert IsExtensionAt(p, 5);
    SplitExtAt(p, 5);
    assert p[..5] == "a.tar";
    assert p[5..] == ".gz";
  }

  /** Worked split: a name of leading dots only has no extension. */
  lemma SplitExtHiddenFile()
    ensures SplitExt(".bashrc") == (".bashrc", "")
  {
    var p := ".bashrc";
    forall i
      ensures !IsExtensionAt(p, i)
    {
      if 0 < i < |p| {
        assert p[i] != '.';
      }
    }
  }

  /** Worked split: a dot in a directory name is not an extension. */
  lemma SplitExtDotInDirectory()
    ensures SplitExt("a.b/c") == ("a.b/c", "")
  {
    var q := "a.b/c";
    forall i
      ensures !IsExtensionAt(q, i)
    {
      if 0 <= i < 3 {
        NoExtensionBeforeSlash(q, 3, i);
      }
    }
  }
}

=== FILE: menu.dfy ===
/** The size/price table of a menu item as the items view maintains it.
    Creating an item inserts one size-detail row per submitted (size, price)
    pair. Updating an item walks the submitted pairs, repricing the item's
    existing row for each size or creating one, remembers the keys it touched,
    and then deletes every size-detail row whose key it did not remember. That
    delete is not restricted to the item being edited. */
module Menu {
  import opened Errors
  import opened Schema
  import opened Store

  /** One submitted `{"size": ..., "price": ...}` pair. */
  datatype SizePrice = SizePrice(size: nat, price: int)

  /** Every submitted size names an existing item size. */
  predicate SizesResolve(db: Db, reqs: seq<SizePrice>) {
    forall i :: 0 <= i < |reqs| ==> reqs[i].size in db.itemSizes
  }

  /** No size is submitted twice. */
  predicate DistinctSizes(reqs: seq<SizePrice>) {
    forall i, j :: 0 <= i < j < |reqs| ==> reqs[i].size != reqs[j].size
  }

  /** Some pair names `size`. */
  predicate Submitted(reqs: seq<SizePrice>, size: nat) {
    exists i :: 0 <= i < |reqs| && reqs[i].size == size
  }

  /** A size is submitted when the first pair names it or a later one does. */
  lemma SubmittedSplit(reqs: seq<SizePrice>, s: nat)
    requires |reqs| > 0
    ensures Submitted(reqs, s) <==> reqs[0].size == s || Submitted(reqs[1..], s)
  {
    if Submitted(reqs, s) && reqs[0].size != s {
      var i :| 0 <= i < |reqs| && reqs[i].size == s;
      assert reqs[1..][i - 1].size == s;
    }
    if Submitted(reqs[1..], s) {
      var i :| 0 <= i < |reqs[1..]| && reqs[1..][i].size == s;
      assert reqs[i + 1].size == s;
    }
  }

  /** The price an update leaves on `size`: the pairs are applied in order,
      so the last pair naming the size wins. */
  function LastPrice(reqs: seq<SizePrice>, size: nat): (r: Option<int>)
    ensures r.None? <==> !Submitted(reqs, size)
    decreases |reqs|
  {
    if |reqs| == 0 then None
    else
      SubmittedSplit(reqs, size);
      match LastPrice(reqs[1..], size)
      case Some(p) => Some(p)
      case None => if reqs[0].size == size then Some(reqs[0].price) else None
  }

  /** The price `LastPrice` reports is the price of a pair for the size that
      no later pair overrides. */
  lemma {:induction false} LastPriceIsLast(reqs: seq<SizePrice>, size: nat)
    requires Submitted(reqs, size)
    ensures exists i :: && 0 <= i < |reqs| && reqs[i] == SizePrice(size, LastPrice(reqs, size).value)
                        && forall j :: i < j < |reqs| ==> reqs[j].size != size
    decreases |reqs|
  {
    SubmittedSplit(reqs, size);
    var rest := reqs[1..];
    if Submitted(rest, size) {
      LastPriceIsLast(rest, size);
      var i :| && 0 <= i < |rest| && rest[i] == SizePrice(size, LastPrice(rest, size).value)
               && forall j :: i < j < |rest| ==> rest[j].size != size;
      assert reqs[i + 1] == rest[i];
      assert forall j :: i + 1 < j < |reqs| ==> reqs[j] == rest[j - 1];
    } else {
      assert forall j :: 0 < j < |reqs| ==> reqs[j] == rest[j - 1];
    }
  }

  /** `ItemSizeDetails.objects.filter(item=item, size=size)`: the row pricing
      `item` in `size`, of which the (item, size) constraint allows one. */
  function FindRow(m: map<nat, SizeDetail>, item: nat, size: nat): (r: Option<nat>)
    requires UniqueSizeDetails(m)
    ensures r.None? <==> forall k :: k in m ==> !(m[k].item == item && m[k].size == size)
    ensures r.Some? ==> r.value in m && m[r.value].item == item && m[r.value].size == size
  {
    if exists k :: k in m && m[k].item == item && m[k].size == size then
      var k :| k in m && m[k].item == item && m[k].size == size;
      Some(k)
    else None
  }

  /** The row `k` of the store before an update is one the update keeps: a
      row of the edited item whose size was submitted. */
  predicate KeptBy(db: Db, id: nat, reqs: seq<SizePrice>, k: nat) {
    k in db.sizeDetails && db.sizeDetails[k].item == id && Submitted(reqs, db.sizeDetails[k].size)
  }

  /** The store holds a row of `item` in `size` at the price the submission
      leaves on that size. */
  predicate Priced(m: map<nat, SizeDetail>, item: nat, reqs: seq<SizePrice>, size: nat) {
    exists k :: k in m && m[k].item == item && m[k].size == size && Some(m[k].price) == LastPrice(reqs, size)
  }

  /** One pass of the update loop: reprice the item's row for the size if it
      has one, otherwise create the row; either way hand back its key. */
  function Step(db: Db, item: nat, req: SizePrice): (r: (Db, nat))
    requires Valid(db) && item in db.items && req.size in db.itemSizes
    ensures Valid(r.0)
    ensures r.1 in r.0.sizeDetails && r.0.sizeDetails[r.1] == SizeDetail(item, req.size, req.price)
    ensures r.0.sizeDetails.Keys == db.sizeDetails.Keys + {r.1}
    ensures forall k :: k in db.sizeDetails ==> (k == r.1 <==> db.sizeDetails[k].item == item && db.sizeDetails[k].size == req.size)
    ensures forall k :: k in db.sizeDetails && k != r.1 ==> r.0.sizeDetails[k] == db.sizeDetails[k]
    ensures forall k :: k in db.sizeDetails ==> r.0.sizeDetails[k].item == db.sizeDetails[k].item && r.0.sizeDetails[k].size == db.sizeDetails[k].size
    ensures r.0 == db.(sizeDetails := r.0.sizeDetails, nextSizeDetail := r.0.nextSizeDetail)
  {
    match FindRow(db.sizeDetails, item, req.size)
    case Some(pk) => (UpdatePrice(db, pk, req.price), pk)
    case None => InsertSizeDetail(db, SizeDetail(item, req.size, req.price)).value
  }

  /** The update loop over all pairs. It returns the store after the loop
      and the kept keys in submission order; the lemmas below say what the
      loop achieves. */
  function ReconcileSizes(db: Db, item: nat, reqs: seq<SizePrice>): (r: (Db, seq<nat>))
    requires Valid(db) && item in db.items && SizesResolve(db, reqs)
    ensures Valid(r.0) && |r.1| == |reqs|
    ensures r.0 == db.(sizeDetails := r.0.sizeDetails, nextSizeDetail := r.0.nextSizeDetail)
    decreases |reqs|
  {
    if |reqs| == 0 then (db, [])
    else
      var (d, pk) := Step(db, item, reqs[0]);
      var (e, ids) := ReconcileSizes(d, item, reqs[1..]);
      (e, [pk] + ids)
  }

  /** The loop keeps exactly the rows of the item whose size is submitted,
      and the only keys it adds are kept ones (the rows it had to create). */
  lemma {:induction false} ReconcileKeeps(db: Db, item: nat, reqs: seq<SizePrice>)
    requires Valid(db) && item in db.items && SizesResolve(db, reqs)
    ensures var (d, ids) := ReconcileSizes(db, item, reqs);
      && (forall k :: k in d.sizeDetails <==> k in db.sizeDetails || k in ids)
      && (forall k :: k in db.sizeDetails ==> (k in ids <==> KeptBy(db, item, reqs, k)))
    decreases |reqs|
  {
    if |reqs| > 0 {
      var (d, pk) := Step(db, item, reqs[0]);
      var (e, ids) := ReconcileSizes(d, item, reqs[1..]);
      assert ReconcileSizes(db, item, reqs) == (e, [pk] + ids);
      ReconcileKeeps(d, item, reqs[1..]);
      forall k | k in db.sizeDetails
        ensures k in [pk] + ids <==> KeptBy(db, item, reqs, k)
      {
        SubmittedSplit(reqs, db.sizeDetails[k].size);
      }
    }
  }

  /** Rows the loop does not keep are left exactly as they were. */
  lemma {:induction false} ReconcileFrame(db: Db, item: nat, reqs: seq<SizePrice>)
    requires Valid(db) && item in db.items && SizesResolve(db, reqs)
    ensures var (d, ids) := ReconcileSizes(db, item, reqs);
      forall k :: k in db.sizeDetails && k !in ids ==> k in d.sizeDetails && d.sizeDetails[k] == db.sizeDetails[k]
    decreases |reqs|
  {
    if |reqs| > 0 {
      var (d, pk) := Step(db, item, reqs[0]);
      var (e, ids) := ReconcileSizes(d, item, reqs[1..]);
      assert ReconcileSizes(db, item, reqs) == (e, [pk] + ids);
      ReconcileFrame(d, item, reqs[1..]);
    }
  }

  /** No row changes its item or its size during the loop. */
  lemma {:induction false} ReconcileKeepsIdentity(db: Db, item: nat, reqs: seq<SizePrice>)
    requires Valid(db) && item in db.items && SizesResolve(db, reqs)
    ensures var (d, ids) := ReconcileSizes(db, item, reqs);
      forall k :: k in db.sizeDetails ==> k in d.sizeDetails && d.sizeDetails[k].item == db.sizeDetails[k].item && d.sizeDetails[k].size == db.sizeDetails[k].size
    decreases |reqs|
  {
    if |reqs| > 0 {
      var (d, pk) := Step(db, item, reqs[0]);
      var (e, ids) := ReconcileSizes(d, item, reqs[1..]);
      assert ReconcileSizes(db, item, reqs) == (e, [pk] + ids);
      ReconcileKeepsIdentity(d, item, reqs[1..]);
    }
  }

  /** Each kept key names a row of the item in the pair's size, carrying the
      last price submitted for that size. */
  lemma {:induction false} ReconcilePrices(db: Db, item: nat, reqs: seq<SizePrice>)
    requires Valid(db) && item in db.items && SizesResolve(db, reqs)
    ensures var (d, ids) := ReconcileSizes(db, item, reqs);
      forall i :: 0 <= i < |reqs| ==>
        && ids[i] in d.sizeDetails
        && d.sizeDetails[ids[i]].item == item && d.sizeDetails[ids[i]].size == reqs[i].size
        && Some(d.sizeDetails[ids[i]].price) == LastPrice(reqs, reqs[i].size)
    decreases |reqs|
  {
    if |reqs| > 0 {
      var (d, pk) := Step(db, item, reqs[0]);
      var (e, ids) := ReconcileSizes(d, item, reqs[1..]);
      assert ReconcileSizes(db, item, reqs) == (e, [pk] + ids);
      ReconcilePrices(d, item, reqs[1..]);
      ReconcileKeeps(d, item, reqs[1..]);
      ReconcileFrame(d, item, reqs[1..]);
      ReconcileKeepsIdentity(d, item, reqs[1..]);
      assert KeptBy(d, item, reqs[1..], pk) <==> Submitted(reqs[1..], reqs[0].size);
      PricesInduction(d.sizeDetails, e.sizeDetails, item, reqs, pk, ids);
    }
  }

  /** The inductive step of `ReconcilePrices`, on the tables alone: `before`
      is the table after the first pair's step, `after` the table after the
      rest of the loop. */
  lemma PricesInduction(before: map<nat, SizeDetail>, after: map<nat, SizeDetail>, item: nat, reqs: seq<SizePrice>, pk: nat, ids: seq<nat>)
    requires |reqs| > 0 && |ids| == |reqs| - 1
    requires pk in before && before[pk] == SizeDetail(item, reqs[0].size, reqs[0].price)
    requires forall i :: 0 <= i < |ids| ==>
      && ids[i] in after
      && after[ids[i]].item == item && after[ids[i]].size == reqs[1..][i].size
      && Some(after[ids[i]].price) == LastPrice(reqs[1..], reqs[1..][i].size)
    requires forall k :: k in before ==> k in after
    requires forall k :: k in before && k !in ids ==> after[k] == before[k]
    requires forall k :: k in before ==> after[k].size == before[k].size
    requires pk in ids <==> Submitted(reqs[1..], reqs[0].size)
    ensures forall i :: 0 <= i < |reqs| ==>
      && ([pk] + ids)[i] in after
      && after[([pk] + ids)[i]].item == item && after[([pk] + ids)[i]].size == reqs[i].size
      && Some(after[([pk] + ids)[i]].price) == LastPrice(reqs, reqs[i].size)
  {
    var all := [pk] + ids;
    var rest := reqs[1..];
    forall i | 0 <= i < |reqs|
      ensures all[i] in after
      ensures after[all[i]].item == item && after[all[i]].size == reqs[i].size
      ensures Some(after[all[i]].price) == LastPrice(reqs, reqs[i].size)
    {
      if i == 0 {
        if pk in ids {
          var m :| 0 <= m < |ids| && ids[m] == pk;
          assert rest[m].size == reqs[0].size;
        }
      } else {
        assert all[i] == ids[i - 1] && reqs[i] == rest[i - 1];
      }
    }
  }

  /** The keys of a sequence, as the `pk__in` filter sees them. */
  function KeySet(ids: seq<nat>): (s: set<nat>)
    ensures forall k :: k in s <==> k in ids
  {
    set i | 0 <= i < |ids| :: ids[i]
  }

  /** The rows an update must delete, stated on the store before it: every
      row that is not a submitted size of the edited item. */
  function Unkept(db: Db, id: nat, reqs: seq<SizePrice>): (s: set<nat>)
    ensures forall k :: k in s <==> k in db.sizeDetails && !KeptBy(db, id, reqs, k)
  {
    set k | k in db.sizeDetails && !KeptBy(db, id, reqs, k)
  }

  /** `perform_update` as written: after the loop, delete every size-detail
      row in the table whose key was not kept. When an order line still
      refers to one of them the delete raises a ProtectedError, which becomes
      a ValidationError; the loop's writes stay and the item is not saved. */
  function ItemUpdate(db: Db, id: nat, updated: Item, reqs: seq<SizePrice>): (r: Outcome<nat>)
    requires Valid(db) && id in db.items && updated.category in db.categories && SizesResolve(db, reqs)
    ensures Valid(r.store)
    ensures r.result.Ok? <==> forall i :: 0 <= i < |db.lines| ==> KeptBy(db, id, reqs, db.lines[i].itemSize)
    ensures r.result.Ok? ==> r.result.value == id && r.store.items == db.items[id := updated]
    ensures r.result.Err? ==> && r.result.error == ValidationError(Protected(ReferencedRows(db.lines, Unkept(db, id, reqs))))
                              && r.store.items == db.items
    ensures r.store == db.(items := r.store.items, sizeDetails := r.store.sizeDetails, nextSizeDetail := r.store.nextSizeDetail)
  {
    var (d, ids) := ReconcileSizes(db, id, reqs);
    ReconcileKeeps(db, id, reqs);
    var doomed := d.sizeDetails.Keys - KeySet(ids);
    assert doomed == Unkept(db, id, reqs);
    Prune(d, doomed, id, updated)
  }

  /** Whether the update succeeds or not, every submitted size ends with a
      row of the item carrying the last price submitted for it. */
  lemma ItemUpdatePrices(db: Db, id: nat, updated: Item, reqs: seq<SizePrice>)
    requires Valid(db) && id in db.items && updated.category in db.categories && SizesResolve(db, reqs)
    ensures var r := ItemUpdate(db, id, updated, reqs);
      forall j :: 0 <= j < |reqs| ==> Priced(r.store.sizeDetails, id, reqs, reqs[j].size)
  {
    var (d, ids) := ReconcileSizes(db, id, reqs);
    ReconcileKeeps(db, id, reqs);
    ReconcilePrices(db, id, reqs);
    var doomed := d.sizeDetails.Keys - KeySet(ids);
    var r := Prune(d, doomed, id, updated);
    assert r == ItemUpdate(db, id, updated, reqs);
    ReconciledPriced(db, id, reqs, d, ids);
    if r.result.Ok? {
      PricedSurvives(d, r.store, id, reqs, ids);
    }
  }

  /** A successful update deletes every row it did not keep, whichever item
      it belongs to, so that only submitted sizes of the edited item remain. */
  lemma ItemUpdateDeletes(db: Db, id: nat, updated: Item, reqs: seq<SizePrice>)
    requires Valid(db) && id in db.items && updated.category in db.categories && SizesResolve(db, reqs)
    ensures var r := ItemUpdate(db, id, updated, reqs);
      r.result.Ok? ==>
        && (forall k :: k in db.sizeDetails ==> (k in r.store.sizeDetails <==> KeptBy(db, id, reqs, k)))
        && (forall k :: k in r.store.sizeDetails ==> r.store.sizeDetails[k].item == id && Submitted(reqs, r.store.sizeDetails[k].size))
  {
    var (d, ids) := ReconcileSizes(db, id, reqs);
    ReconcileKeeps(db, id, reqs);
    ReconcilePrices(db, id, reqs);
    var doomed := d.sizeDetails.Keys - KeySet(ids);
    var r := Prune(d, doomed, id, updated);
    assert r == ItemUpdate(db, id, updated, reqs);
    if r.result.Ok? {
      PricedSurvives(d, r.store, id, reqs, ids);
    }
  }

  /** A refused update leaves the loop's writes in place: the rows it would
      have deleted are all still there, unchanged. */
  lemma ItemUpdateRefusedKeepsRows(db: Db, id: nat, updated: Item, reqs: seq<SizePrice>)
    requires Valid(db) && id in db.items && updated.category in db.categories && SizesResolve(db, reqs)
    ensures var r := ItemUpdate(db, id, updated, reqs);
      r.result.Err? ==> forall k :: k in Unkept(db, id, reqs) ==> k in r.store.sizeDetails && r.store.sizeDetails[k] == db.sizeDetails[k]
  {
    var (d, ids) := ReconcileSizes(db, id, reqs);
    ReconcileKeeps(db, id, reqs);
    ReconcileFrame(db, id, reqs);
  }

  /** The tail of both update variants: delete `doomed` and save the item,
      or turn the ProtectedError into a ValidationError and keep the store
      as the loop left it. */
  function Prune(d: Db, doomed: set<nat>, id: nat, updated: Item): (r: Outcome<nat>)
    requires Valid(d) && id in d.items && updated.category in d.categories
    ensures Valid(r.store)
    ensures r.result.Ok? <==> forall i :: 0 <= i < |d.lines| ==> d.lines[i].itemSize !in doomed
    ensures r.result.Ok? ==> && r.result.value == id
                             && r.store == d.(items := d.items[id := updated], sizeDetails := d.sizeDetails - doomed)
    ensures r.result.Err? ==> r.store == d && r.result.error == ValidationError(Protected(ReferencedRows(d.lines, doomed)))
  {
    match DeleteSizeDetails(d, doomed)
    case Err(_) => Outcome(d, Err(ValidationError(Protected(ReferencedRows(d.lines, doomed)))))
    case Ok(e) =>
      assert e.sizeDetails == d.sizeDetails - doomed;
      Outcome(SaveItem(e, id, updated), Ok(id))
  }

  /** After the loop every submitted size is priced. */
  lemma ReconciledPriced(db: Db, id: nat, reqs: seq<SizePrice>, d: Db, ids: seq<nat>)
    requires Valid(db) && id in db.items && SizesResolve(db, reqs)
    requires (d, ids) == ReconcileSizes(db, id, reqs)
    requires |ids| == |reqs|
    requires forall i :: 0 <= i < |reqs| ==>
      && ids[i] in d.sizeDetails
      && d.sizeDetails[ids[i]].item == id && d.sizeDetails[ids[i]].size == reqs[i].size
      && Some(d.sizeDetails[ids[i]].price) == LastPrice(reqs, reqs[i].size)
    ensures forall j :: 0 <= j < |reqs| ==> Priced(d.sizeDetails, id, reqs, reqs[j].size)
  {
    forall j | 0 <= j < |reqs|
      ensures Priced(d.sizeDetails, id, reqs, reqs[j].size)
    {
      assert d.sizeDetails[ids[j]].item == id;
    }
  }

  /** Deleting rows other than the kept ones leaves the submitted sizes
      priced. */
  lemma PricedSurvives(d: Db, e: Db, id: nat, reqs: seq<SizePrice>, ids: seq<nat>)
    requires |ids| == |reqs|
    requires forall i :: 0 <= i < |reqs| ==>
      && ids[i] in d.sizeDetails
      && d.sizeDetails[ids[i]].item == id && d.sizeDetails[ids[i]].size == reqs[i].size
      && Some(d.sizeDetails[ids[i]].price) == LastPrice(reqs, reqs[i].size)
    requires e.sizeDetails == d.sizeDetails - (d.sizeDetails.Keys - KeySet(ids))
    ensures forall j :: 0 <= j < |reqs| ==> Priced(e.sizeDetails, id, reqs, reqs[j].size)
    ensures forall k :: k in e.sizeDetails ==> e.sizeDetails[k].item == id && Submitted(reqs, e.sizeDetails[k].size)
  {
    forall j | 0 <= j < |reqs|
      ensures Priced(e.sizeDetails, id, reqs, reqs[j].size)
    {
      assert ids[j] in e.sizeDetails;
    }
    forall k | k in e.sizeDetails
      ensures e.sizeDetails[k].item == id && Submitted(reqs, e.sizeDetails[k].size)
    {
      var i :| 0 <= i < |ids| && ids[i] == k;
      assert reqs[i].size == e.sizeDetails[k].size;
    }
  }

  // ---------------------------------------------------------------- the scoped update

  /** The rows of the edited item an update must delete: its rows whose size
      was not submitted. */
  function OwnUnkept(db: Db, id: nat, reqs: seq<SizePrice>): (s: set<nat>)
    ensures forall k :: k in s <==> k in db.sizeDetails && db.sizeDetails[k].item == id && !Submitted(reqs, db.sizeDetails[k].size)
  {
    set k | k in db.sizeDetails && db.sizeDetails[k].item == id && !Submitted(reqs, db.sizeDetails[k].size)
  }

  /** The update with its delete restricted to the edited item's rows, the
      evident intent of the reconciliation: it is refused only when an order
      line refers to a row of this item whose size was dropped. */
  function ItemUpdateScoped(db: Db, id: nat, updated: Item, reqs: seq<SizePrice>): (r: Outcome<nat>)
    requires Valid(db) && id in db.items && updated.category in db.categories && SizesResolve(db, reqs)
    ensures Valid(r.store)
    ensures r.result.Ok? <==> forall i :: 0 <= i < |db.lines| ==> db.lines[i].itemSize !in OwnUnkept(db, id, reqs)
    ensures r.result.Ok? ==> r.result.value == id && r.store.items == db.items[id := updated]
    ensures r.result.Err? ==> && r.result.error == ValidationError(Protected(ReferencedRows(db.lines, OwnUnkept(db, id, reqs))))
                              && r.store.items == db.items
    ensures r.store == db.(items := r.store.items, sizeDetails := r.store.sizeDetails, nextSizeDetail := r.store.nextSizeDetail)
  {
    var (d, ids) := ReconcileSizes(db, id, reqs);
    ReconcileKeeps(db, id, reqs);
    ReconcileKeepsIdentity(db, id, reqs);
    ReconcilePrices(db, id, reqs);
    var doomed := RowsOfItem(d.sizeDetails, id) - KeySet(ids);
    assert doomed == OwnUnkept(db, id, reqs) by {
      forall k | k in doomed
        ensures k in OwnUnkept(db, id, reqs)
      {
        assert k in db.sizeDetails;
      }
    }
    Prune(d, doomed, id, updated)
  }

  /** A successful scoped update leaves every other item's rows alone and
      creates rows only for the edited item, which keeps exactly its
      submitted sizes at their last prices. */
  lemma ItemUpdateScopedSpares(db: Db, id: nat, updated: Item, reqs: seq<SizePrice>)
    requires Valid(db) && id in db.items && updated.category in db.categories && SizesResolve(db, reqs)
    ensures var r := ItemUpdateScoped(db, id, updated, reqs);
      r.result.Ok? ==>
        && (forall k :: k in db.sizeDetails && db.sizeDetails[k].item != id ==> k in r.store.sizeDetails && r.store.sizeDetails[k] == db.sizeDetails[k])
        && (forall j :: 0 <= j < |reqs| ==> Priced(r.store.sizeDetails, id, reqs, reqs[j].size))
        && (forall k :: k in r.store.sizeDetails && k !in db.sizeDetails ==> r.store.sizeDetails[k].item == id)
        && (forall k :: k in r.store.sizeDetails && r.store.sizeDetails[k].item == id ==> Submitted(reqs, r.store.sizeDetails[k].size))
  {
    var (d, ids) := ReconcileSizes(db, id, reqs);
    ReconcileKeeps(db, id, reqs);
    ReconcileFrame(db, id, reqs);
    ReconcileKeepsIdentity(db, id, reqs);
    ReconcilePrices(db, id, reqs);
    var doomed := RowsOfItem(d.sizeDetails, id) - KeySet(ids);
    var r := Prune(d, doomed, id, updated);
    assert r == ItemUpdateScoped(db, id, updated, reqs);
    if r.result.Ok? {
      var m := r.store.sizeDetails;
      forall j | 0 <= j < |reqs|
        ensures Priced(m, id, reqs, reqs[j].size)
      {
        assert ids[j] in m;
      }
      forall k | k in m && m[k].item == id
        ensures Submitted(reqs, m[k].size)
      {
        var i :| 0 <= i < |ids| && ids[i] == k;
        assert reqs[i].size == m[k].size;
      }
    }
  }

  /** As written, a successful update deletes the rows of every other item:
      any row of another item present before is gone afterwards. */
  lemma ItemUpdateDeletesOtherItems(db: Db, id: nat, updated: Item, reqs: seq<SizePrice>, k: nat)
    requires Valid(db) && id in db.items && updated.category in db.categories && SizesResolve(db, reqs)
    requires k in db.sizeDetails && db.sizeDetails[k].item != id
    ensures ItemUpdate(db, id, updated, reqs).result.Ok? ==> k !in ItemUpdate(db, id, updated, reqs).store.sizeDetails
    ensures ItemUpdateScoped(db, id, updated, reqs).result.Ok? ==> k in ItemUpdateScoped(db, id, updated, reqs).store.sizeDetails
  {
    ItemUpdateDeletes(db, id, updated, reqs);
    ItemUpdateScopedSpares(db, id, updated, reqs);
  }

  /** As written, an order for any other item blocks the update, although
      the scoped update goes through whenever no order refers to a dropped
      size of the edited item. */
  lemma OtherItemsOrderBlocksUpdate(db: Db, id: nat, updated: Item, reqs: seq<SizePrice>)
    requires Valid(db) && id in db.items && updated.category in db.categories && SizesResolve(db, reqs)
    requires |db.lines| > 0
    requires forall i :: 0 <= i < |db.lines| ==> db.sizeDetails[db.lines[i].itemSize].item != id
    ensures ItemUpdate(db, id, updated, reqs).result == Err(ValidationError(Protected(ReferencedRows(db.lines, Unkept(db, id, reqs)))))
    ensures ItemUpdateScoped(db, id, updated, reqs).result == Ok(id)
  {
    assert !KeptBy(db, id, reqs, db.lines[0].itemSize);
  }

  // ---------------------------------------------------------------- creating an item

  /** The item has a row in `size`. */
  predicate HasSize(m: map<nat, SizeDetail>, item: nat, size: nat) {
    exists k :: k in m && m[k].item == item && m[k].size == size
  }

  /** The creation loop: one insert per pair, in order. The (item, size)
      constraint stops it at the first pair whose size the item already has,
      with the rows created so far left in place. */
  function CreateRows(db: Db, item: nat, reqs: seq<SizePrice>): (r: Outcome<seq<nat>>)
    requires Valid(db) && item in db.items && SizesResolve(db, reqs)
    ensures Valid(r.store)
    ensures r.result.Err? ==> r.result.error == IntegrityError
    ensures r.result.Ok? ==> |r.result.value| == |reqs|
    ensures r.store == db.(sizeDetails := r.store.sizeDetails, nextSizeDetail := r.store.nextSizeDetail)
    decreases |reqs|
  {
    if |reqs| == 0 then Outcome(db, Ok([]))
    else
      match InsertSizeDetail(db, SizeDetail(item, reqs[0].size, reqs[0].price))
      case Err(e) => Outcome(db, Err(e))
      case Ok((d, pk)) =>
        var rest := CreateRows(d, item, reqs[1..]);
        match rest.result
        case Err(e) => Outcome(rest.store, Err(e))
        case Ok(ids) => Outcome(rest.store, Ok([pk] + ids))
  }

  /** Sizes are distinct when the first differs from all later ones and the
      later ones are distinct among themselves. */
  lemma DistinctSplit(reqs: seq<SizePrice>)
    requires |reqs| > 0
    ensures DistinctSizes(reqs) <==> DistinctSizes(reqs[1..]) && forall j :: 0 <= j < |reqs| - 1 ==> reqs[1..][j].size != reqs[0].size
  {
    var rest := reqs[1..];
    assert forall j :: 0 < j < |reqs| ==> reqs[j] == rest[j - 1];
    if DistinctSizes(rest) && forall j :: 0 <= j < |rest| ==> rest[j].size != reqs[0].size {
      forall a, b | 0 <= a < b < |reqs|
        ensures reqs[a].size != reqs[b].size
      {
        if a > 0 {
          assert reqs[a] == rest[a - 1] && reqs[b] == rest[b - 1];
        } else {
          assert reqs[b] == rest[b - 1];
        }
      }
    }
  }

  /** Inserting a row gives the item exactly one more size. */
  lemma HasSizeInsert(m: map<nat, SizeDetail>, pk: nat, row: SizeDetail, item: nat, size: nat)
    requires pk !in m
    ensures HasSize(m[pk := row], item, size) <==> HasSize(m, item, size) || (row.item == item && row.size == size)
  {
    var m' := m[pk := row];
    if HasSize(m', item, size) && !(row.item == item && row.size == size) {
      var k :| k in m' && m'[k].item == item && m'[k].size == size;
      assert k in m && m[k] == m'[k];
    }
    if HasSize(m, item, size) {
      var k :| k in m && m[k].item == item && m[k].size == size;
      assert k in m' && m'[k] == m[k];
    }
    if row.item == item && row.size == size {
      assert pk in m' && m'[pk] == row;
    }
  }

  /** Creation succeeds exactly when no size is submitted twice and the item
      has none of the submitted sizes yet. */
  lemma {:induction false} CreateRowsSucceeds(db: Db, item: nat, reqs: seq<SizePrice>)
    requires Valid(db) && item in db.items && SizesResolve(db, reqs)
    ensures CreateRows(db, item, reqs).result.Ok? <==>
      DistinctSizes(reqs) && forall j :: 0 <= j < |reqs| ==> !HasSize(db.sizeDetails, item, reqs[j].size)
    decreases |reqs|
  {
    if |reqs| > 0 {
      var row := SizeDetail(item, reqs[0].size, reqs[0].price);
      var rest := reqs[1..];
      DistinctSplit(reqs);
      match InsertSizeDetail(db, row)
      case Err(_) =>
        assert HasSize(db.sizeDetails, item, reqs[0].size);
      case Ok((d, pk)) =>
        CreateRowsSucceeds(d, item, rest);
        assert CreateRows(db, item, reqs).result.Ok? == CreateRows(d, item, rest).result.Ok?;
        forall j | 0 <= j < |rest|
          ensures HasSize(d.sizeDetails, item, rest[j].size) <==> HasSize(db.sizeDetails, item, rest[j].size) || rest[j].size == reqs[0].size
        {
          HasSizeInsert(db.sizeDetails, pk, row, item, rest[j].size);
        }
        assert !HasSize(db.sizeDetails, item, reqs[0].size);
        assert forall j :: 0 < j < |reqs| ==> reqs[j] == rest[j - 1];
    }
  }

  /** The creation loop never touches an existing row. */
  lemma {:induction false} CreateRowsKeepsOld(db: Db, item: nat, reqs: seq<SizePrice>)
    requires Valid(db) && item in db.items && SizesResolve(db, reqs)
    ensures var r := CreateRows(db, item, reqs);
      forall k :: k in db.sizeDetails ==> k in r.store.sizeDetails && r.store.sizeDetails[k] == db.sizeDetails[k]
    decreases |reqs|
  {
    if |reqs| > 0 {
      match InsertSizeDetail(db, SizeDetail(item, reqs[0].size, reqs[0].price))
      case Err(_) =>
      case Ok((d, pk)) =>
        CreateRowsKeepsOld(d, item, reqs[1..]);
        var m := CreateRows(d, item, reqs[1..]).store.sizeDetails;
        assert CreateRows(db, item, reqs).store.sizeDetails == m;
        forall k | k in db.sizeDetails
          ensures k in m && m[k] == db.sizeDetails[k]
        {
          assert k in d.sizeDetails && d.sizeDetails[k] == db.sizeDetails[k];
        }
    }
  }

  /** A successful creation adds one new row per pair, holding the pair's
      size and price. */
  lemma {:induction false} CreateRowsAdds(db: Db, item: nat, reqs: seq<SizePrice>)
    requires Valid(db) && item in db.items && SizesResolve(db, reqs)
    ensures var r := CreateRows(db, item, reqs);
      r.result.Ok? ==> forall j :: 0 <= j < |reqs| ==>
        && r.result.value[j] !in db.sizeDetails && r.result.value[j] in r.store.sizeDetails
        && r.store.sizeDetails[r.result.value[j]] == SizeDetail(item, reqs[j].size, reqs[j].price)
    decreases |reqs|
  {
    if |reqs| > 0 {
      match InsertSizeDetail(db, SizeDetail(item, reqs[0].size, reqs[0].price))
      case Err(_) =>
      case Ok((d, pk)) =>
        CreateRowsAdds(d, item, reqs[1..]);
        CreateRowsKeepsOld(d, item, reqs[1..]);
        var rest := CreateRows(d, item, reqs[1..]);
        if rest.result.Ok? {
          var all := [pk] + rest.result.value;
          forall j | 0 <= j < |reqs|
            ensures all[j] !in db.sizeDetails && all[j] in rest.store.sizeDetails
            ensures rest.store.sizeDetails[all[j]] == SizeDetail(item, reqs[j].size, reqs[j].price)
          {
            if j > 0 {
              assert all[j] == rest.result.value[j - 1] && reqs[j] == reqs[1..][j - 1];
            }
          }
        }
    }
  }

  /** Every row the loop creates, whether or not it completes, belongs to the
      item and prices a submitted size. */
  lemma {:induction false} CreateRowsOnlySubmitted(db: Db, item: nat, reqs: seq<SizePrice>)
    requires Valid(db) && item in db.items && SizesResolve(db, reqs)
    ensures var r := CreateRows(db, item, reqs);
      forall k :: k in r.store.sizeDetails && k !in db.sizeDetails ==>
        r.store.sizeDetails[k].item == item && Submitted(reqs, r.store.sizeDetails[k].size)
    decreases |reqs|
  {
    if |reqs| > 0 {
      var row := SizeDetail(item, reqs[0].size, reqs[0].price);
      match InsertSizeDetail(db, row)
      case Err(_) =>
      case Ok((d, pk)) =>
        CreateRowsOnlySubmitted(d, item, reqs[1..]);
        CreateRowsKeepsOld(d, item, reqs[1..]);
        var m := CreateRows(d, item, reqs[1..]).store.sizeDetails;
        assert CreateRows(db, item, reqs).store.sizeDetails == m;
        forall k | k in m && k !in db.sizeDetails
          ensures m[k].item == item && Submitted(reqs, m[k].size)
        {
          SubmittedSplit(reqs, m[k].size);
          if k == pk {
            assert m[k] == row;
          } else {
            assert k !in d.sizeDetails;
          }
        }
    }
  }

  /** `perform_create`: save the item, then insert its rows. A repeated size
      raises an IntegrityError after the item and the earlier rows are
      saved; nothing undoes them. */
  function ItemCreate(db: Db, item: Item, reqs: seq<SizePrice>): (r: Outcome<nat>)
    requires Valid(db) && item.category in db.categories && SizesResolve(db, reqs)
    ensures Valid(r.store)
    ensures db.nextItem !in db.items && r.store.items == db.items[db.nextItem := item]
    ensures r.result.Ok? <==> DistinctSizes(reqs)
    ensures r.result.Ok? ==> r.result.value == db.nextItem
    ensures r.result.Err? ==> r.result.error == IntegrityError
    ensures r.store == db.(items := r.store.items, nextItem := r.store.nextItem,
                           sizeDetails := r.store.sizeDetails, nextSizeDetail := r.store.nextSizeDetail)
  {
    var (d, id) := InsertItem(db, item);
    CreateRowsSucceeds(d, id, reqs);
    var rows := CreateRows(d, id, reqs);
    Outcome(rows.store, if rows.result.Ok? then Ok(id) else Err(rows.result.error))
  }

  /** After a successful creation the new item's rows are exactly the
      submitted pairs: each pair has its row, and every row of the item is
      one of the pairs. Rows of other items are untouched either way, and
      every row created belongs to the new item. */
  lemma ItemCreateRows(db: Db, item: Item, reqs: seq<SizePrice>)
    requires Valid(db) && item.category in db.categories && SizesResolve(db, reqs)
    ensures var r := ItemCreate(db, item, reqs);
      var id := db.nextItem;
      && (forall k :: k in db.sizeDetails ==> k in r.store.sizeDetails && r.store.sizeDetails[k] == db.sizeDetails[k])
      && (r.result.Ok? ==> forall j :: 0 <= j < |reqs| ==>
            exists k :: k in r.store.sizeDetails && r.store.sizeDetails[k] == SizeDetail(id, reqs[j].size, reqs[j].price))
      && (forall k :: k in r.store.sizeDetails && k !in db.sizeDetails ==> r.store.sizeDetails[k].item == id)
      && (forall k :: k in r.store.sizeDetails && r.store.sizeDetails[k].item == id ==> Submitted(reqs, r.store.sizeDetails[k].size))
  {
    var (d, id) := InsertItem(db, item);
    CreateRowsKeepsOld(d, id, reqs);
    CreateRowsAdds(d, id, reqs);
    CreateRowsOnlySubmitted(d, id, reqs);
    var rows := CreateRows(d, id, reqs);
    if rows.result.Ok? {
      forall j | 0 <= j < |reqs|
        ensures exists k :: k in rows.store.sizeDetails && rows.store.sizeDetails[k] == SizeDetail(id, reqs[j].size, reqs[j].price)
      {
        assert rows.result.value[j] in rows.store.sizeDetails;
      }
    }
  }
}

=== FILE: orders.dfy ===
/** Creating and updating orders in the orders view. Both store the
    submitted (item_size, count) pairs as the order's lines and then save
    `total_price`, computed from the prices of that moment: the stored total
    is a snapshot that later price changes leave alone. */
module Orders {
  import opened Errors
  import opened Schema
  import opened Store
  import opened Pricing

  /** One submitted pair; an omitted count takes the column default. */
  datatype OrderLine = OrderLine(itemSize: nat, count: Option<int>)

  /** The lines `ItemOrderDetails.objects.create(order=..., **pair)` inserts
      for the submitted pairs, in submission order. */
  function Materialize(order: nat, reqs: seq<OrderLine>): (lines: seq<LineItem>)
    ensures |lines| == |reqs|
    ensures forall i :: 0 <= i < |reqs| ==> lines[i] == LineItem(order, reqs[i].itemSize, reqs[i].count.GetOr(DEFAULT_LINE_COUNT))
  {
    seq(|reqs|, i requires 0 <= i < |reqs| => LineItem(order, reqs[i].itemSize, reqs[i].count.GetOr(DEFAULT_LINE_COUNT)))
  }

  /** Every submitted pair names an existing size-detail row. */
  predicate Resolves(db: Db, reqs: seq<OrderLine>) {
    forall i :: 0 <= i < |reqs| ==> reqs[i].itemSize in db.sizeDetails
  }

  /** The price of a submission, stated on the pairs themselves. */
  function RequestedTotal(details: map<nat, SizeDetail>, reqs: seq<OrderLine>): int
    decreases |reqs|
  {
    if |reqs| == 0 then 0
    else PriceOf(details, reqs[0].itemSize) * reqs[0].count.GetOr(DEFAULT_LINE_COUNT) + RequestedTotal(details, reqs[1..])
  }

  /** `order.get_total_price()`: the order's lines at the current prices. */
  function CurrentTotal(db: Db, order: nat): int {
    LinesTotal(db.sizeDetails, LinesOf(db, order))
  }

  /** Pricing the inserted lines is pricing the submission. */
  lemma {:induction false} MaterializedTotal(details: map<nat, SizeDetail>, order: nat, reqs: seq<OrderLine>)
    ensures LinesTotal(details, Materialize(order, reqs)) == RequestedTotal(details, reqs)
    decreases |reqs|
  {
    if |reqs| > 0 {
      MaterializedTotal(details, order, reqs[1..]);
      assert Materialize(order, reqs)[1..] == Materialize(order, reqs[1..]);
    }
  }

  /** The lines of a fresh order are exactly the inserted ones, and every
      older order keeps its lines. */
  lemma AppendedLines(db: Db, id: nat, reqs: seq<OrderLine>)
    requires Valid(db) && id !in db.orders
    ensures Select(db.lines + Materialize(id, reqs), id, true) == Materialize(id, reqs)
    ensures forall o :: o != id ==> Select(db.lines + Materialize(id, reqs), o, true) == Select(db.lines, o, true)
  {
    var added := Materialize(id, reqs);
    SelectAppend(db.lines, added, id, true);
    SelectUniform(db.lines, id, true);
    SelectUniform(added, id, true);
    forall o | o != id
      ensures Select(db.lines + added, o, true) == Select(db.lines, o, true)
    {
      SelectAppend(db.lines, added, o, true);
      SelectUniform(added, o, true);
    }
  }

  /** `perform_create`: save the order with its defaults, insert one line per
      submitted pair, then store the total at the current prices. */
  function OrderCreate(db: Db, customer: nat, restaurant: nat, address: string, reqs: seq<OrderLine>): (r: (Db, nat))
    requires Valid(db) && Resolves(db, reqs)
    ensures Valid(r.0)
    ensures r.1 !in db.orders && r.0.orders.Keys == db.orders.Keys + {r.1}
    ensures r.0.orders[r.1] == Order(customer, restaurant, address, PICKED, RequestedTotal(db.sizeDetails, reqs), None, None, None, None)
    ensures r.0.lines == db.lines + Materialize(r.1, reqs)
    ensures forall o :: o in db.orders ==> r.0.orders[o] == db.orders[o]
    ensures r.0 == db.(orders := r.0.orders, nextOrder := r.0.nextOrder, lines := r.0.lines)
  {
    var order := Order(customer, restaurant, address, DEFAULT_STATUS, DEFAULT_TOTAL_PRICE, None, None, None, None);
    var (inserted, id) := InsertOrder(db, order);
    var saved := SaveLines(inserted, db.lines + Materialize(id, reqs));
    AppendedLines(db, id, reqs);
    MaterializedTotal(db.sizeDetails, id, reqs);
    (SaveOrder(saved, id, order.(totalPrice := CurrentTotal(saved, id))), id)
  }

  /** A new order's lines are exactly the submitted pairs, its stored total
      is their live total at creation, and every older order keeps its
      lines. */
  lemma OrderCreateLines(db: Db, customer: nat, restaurant: nat, address: string, reqs: seq<OrderLine>)
    requires Valid(db) && Resolves(db, reqs)
    ensures var (d, id) := OrderCreate(db, customer, restaurant, address, reqs);
      && LinesOf(d, id) == Materialize(id, reqs)
      && d.orders[id].totalPrice == CurrentTotal(d, id)
      && forall o :: o != id ==> LinesOf(d, o) == LinesOf(db, o)
  {
    var (d, id) := OrderCreate(db, customer, restaurant, address, reqs);
    AppendedLines(db, id, reqs);
    MaterializedTotal(db.sizeDetails, id, reqs);
  }

  /** The line table with the order's lines swapped for `added`: the other
      orders' lines first, in their order, then the new ones. */
  function ReplaceLines(db: Db, id: nat, reqs: seq<OrderLine>): (d: Db)
    requires Valid(db) && id in db.orders && Resolves(db, reqs)
    ensures Valid(d)
    ensures d.lines == Select(db.lines, id, false) + Materialize(id, reqs)
    ensures LinesOf(d, id) == Materialize(id, reqs)
    ensures forall o :: o != id ==> LinesOf(d, o) == LinesOf(db, o)
    ensures d == db.(lines := d.lines)
  {
    var others := Select(db.lines, id, false);
    var added := Materialize(id, reqs);
    SelectMembers(db.lines, id, false);
    var d := SaveLines(db, others + added);
    SelectAppend(others, added, id, true);
    SelectUniform(others, id, true);
    SelectUniform(added, id, true);
    forall o | o != id
      ensures LinesOf(d, o) == LinesOf(db, o)
    {
      SelectAppend(others, added, o, true);
      SelectUniform(added, o, true);
      SelectOtherOrder(db.lines, id, o);
    }
    d
  }

  /** `perform_update`: set the submitted fields, delete every line of the
      order, insert the submitted pairs, then store the total again. */
  function OrderUpdate(db: Db, id: nat, address: string, reqs: seq<OrderLine>): (d: Db)
    requires Valid(db) && id in db.orders && Resolves(db, reqs)
    ensures Valid(d)
    ensures d.orders.Keys == db.orders.Keys
    ensures LinesOf(d, id) == Materialize(id, reqs)
    ensures forall o :: o != id ==> LinesOf(d, o) == LinesOf(db, o)
    ensures d.orders[id].totalPrice == RequestedTotal(db.sizeDetails, reqs) == CurrentTotal(d, id)
    ensures d.orders[id] == db.orders[id].(address := address, totalPrice := d.orders[id].totalPrice)
    ensures forall o :: o in db.orders && o != id ==> d.orders[o] == db.orders[o]
    ensures d.lines == Select(db.lines, id, false) + Materialize(id, reqs)
    ensures d == db.(orders := d.orders, lines := d.lines)
  {
    var replaced := ReplaceLines(db, id, reqs);
    MaterializedTotal(db.sizeDetails, id, reqs);
    var order := db.orders[id].(address := address);
    SaveOrder(replaced, id, order.(totalPrice := CurrentTotal(replaced, id)))
  }

  /** Submitting the same update twice leaves the store as one submission
      does (the line rows' own auto-increment keys aside, which the model
      does not carry). */
  lemma OrderUpdateIdempotent(db: Db, id: nat, address: string, reqs: seq<OrderLine>)
    requires Valid(db) && id in db.orders && Resolves(db, reqs)
    ensures OrderUpdate(OrderUpdate(db, id, address, reqs), id, address, reqs) == OrderUpdate(db, id, address, reqs)
  {
    var once := OrderUpdate(db, id, address, reqs);
    var twice := OrderUpdate(once, id, address, reqs);
    SelectDropsAppended(db.lines, Materialize(id, reqs), id);
    assert twice.lines == once.lines;
    assert twice.orders[id] == once.orders[id];
    assert twice.orders == once.orders;
  }

  /** Changing a price after the fact leaves every stored total as it was. */
  lemma StoredTotalIsSnapshot(db: Db, pk: nat, price: int, o: nat)
    requires pk in db.sizeDetails && o in db.orders
    ensures UpdatePrice(db, pk, price).orders[o].totalPrice == db.orders[o].totalPrice
  {
  }

  /** ... while the live total of each order moves by the price difference
      times the units of that row the order holds. */
  lemma LiveTotalFollowsPrice(db: Db, pk: nat, price: int, o: nat)
    requires pk in db.sizeDetails
    ensures CurrentTotal(UpdatePrice(db, pk, price), o)
         == CurrentTotal(db, o) + (price - db.sizeDetails[pk].price) * UnitsOf(LinesOf(db, o), pk)
  {
    RepricedLinesTotal(db, pk, price, LinesOf(db, o));
  }

  /** Any lines, priced before and after one row's price changes. */
  lemma RepricedLinesTotal(db: Db, pk: nat, price: int, lines: seq<LineItem>)
    requires pk in db.sizeDetails
    ensures LinesTotal(UpdatePrice(db, pk, price).sizeDetails, lines) == LinesTotal(db.sizeDetails, lines) + (price - db.sizeDetails[pk].price) * UnitsOf(lines, pk)
  {
    LinesTotalReprice(db.sizeDetails, UpdatePrice(db, pk, price).sizeDetails, lines, pk, price);
  }

  /** The order-then-reprice scenario: three units at 100 are stored as 300;
      after the price becomes 600 the stored total is still 300 while the live
      total is 1800. */
  lemma RepriceAfterOrderExample(db: Db, pk: nat, customer: nat, restaurant: nat, address: string)
    requires Valid(db) && pk in db.sizeDetails && db.sizeDetails[pk].price == 100
    ensures var (created, id) := OrderCreate(db, customer, restaurant, address, [OrderLine(pk, Some(3))]);
      var repriced := UpdatePrice(created, pk, 600);
      && created.orders[id].totalPrice == 300 == CurrentTotal(created, id)
      && repriced.orders[id].totalPrice == 300
      && CurrentTotal(repriced, id) == 1800
  {
    var reqs := [OrderLine(pk, Some(3))];
    var (created, id) := OrderCreate(db, customer, restaurant, address, reqs);
    OrderCreateLines(db, customer, restaurant, address, reqs);
    assert RequestedTotal(db.sizeDetails, reqs) == 300 by {
      assert RequestedTotal(db.sizeDetails, reqs[1..]) == 0;
    }
    assert LinesOf(created, id) == [LineItem(id, pk, 3)];
    RepriceSingleLine(created, pk, id);
  }

  /** The second half of the scenario above, for any store in which the
      order holds exactly three units of the row. */
  lemma RepriceSingleLine(d: Db, pk: nat, id: nat)
    requires pk in d.sizeDetails && d.sizeDetails[pk].price == 100 && id in d.orders
    requires LinesOf(d, id) == [LineItem(id, pk, 3)]
    ensures UpdatePrice(d, pk, 600).orders[id].totalPrice == d.orders[id].totalPrice
    ensures CurrentTotal(UpdatePrice(d, pk, 600), id) == 1800
  {
    StoredTotalIsSnapshot(d, pk, 600, id);
    LiveTotalFollowsPrice(d, pk, 600, id);
    var lines := LinesOf(d, id);
    assert lines[1..] == [];
    assert UnitsOf(lines, pk) == 3;
    assert LinesTotal(d.sizeDetails, lines) == PriceOf(d.sizeDetails, pk) * 3 + LinesTotal(d.sizeDetails, []);
  }

  /** The four-pair creation scenario: 1*100 + 2*200 + 3*300 + 4*400 = 3000,
      and the new order is Picked. */
  lemma CreateOrderExample(db: Db, a: nat, b: nat, c: nat, e: nat, customer: nat, restaurant: nat, address: string)
    requires Valid(db) && a in db.sizeDetails && b in db.sizeDetails && c in db.sizeDetails && e in db.sizeDetails
    requires db.sizeDetails[a].price == 100 && db.sizeDetails[b].price == 200
    requires db.sizeDetails[c].price == 300 && db.sizeDetails[e].price == 400
    ensures var reqs := [OrderLine(a, Some(1)), OrderLine(b, Some(2)), OrderLine(c, Some(3)), OrderLine(e, Some(4))];
      var (created, id) := OrderCreate(db, customer, restaurant, address, reqs);
      created.orders[id].totalPrice == 3000 && created.orders[id].status == PICKED && |LinesOf(created, id)| == 4
  {
    var reqs := [OrderLine(a, Some(1)), OrderLine(b, Some(2)), OrderLine(c, Some(3)), OrderLine(e, Some(4))];
    OrderCreateLines(db, customer, restaurant, address, reqs);
    var d := db.sizeDetails;
    assert RequestedTotal(d, reqs[3..]) == 1600;
    assert reqs[2..][1..] == reqs[3..];
    assert RequestedTotal(d, reqs[2..]) == 2500;
    assert reqs[1..][1..] == reqs[2..];
    assert RequestedTotal(d, reqs[1..]) == 2900;
  }

  /** The update scenario: whatever lines the order had, resubmitting
      [(a, 4), (b, 3)] at prices 100 and 200 leaves exactly those two lines
      and a stored total of 1000. */
  lemma UpdateOrderExample(db: Db, id: nat, a: nat, b: nat, address: string)
    requires Valid(db) && id in db.orders && a in db.sizeDetails && b in db.sizeDetails
    requires db.sizeDetails[a].price == 100 && db.sizeDetails[b].price == 200
    ensures var d := OrderUpdate(db, id, address, [OrderLine(a, Some(4)), OrderLine(b, Some(3))]);
      d.orders[id].totalPrice == 1000 && LinesOf(d, id) == [LineItem(id, a, 4), LineItem(id, b, 3)]
  {
    var reqs := [OrderLine(a, Some(4)), OrderLine(b, Some(3))];
    assert RequestedTotal(db.sizeDetails, reqs[1..]) == 600;
  }
}

=== FILE: phone.dfy ===
/** The restaurant phone validator: the pattern `^\+?1?\d{9,15}$`, that is
    an optional '+', an optional '1', then nine to fifteen decimal digits and
    nothing else. */
module Phone {

  const MIN_DIGITS := 9
  const MAX_DIGITS := 15

  predicate IsDigit(c: char) {
    '0' <= c <= '9'
  }

  predicate AllDigits(s: string) {
    forall i :: 0 <= i < |s| ==> IsDigit(s[i])
  }

  /** The pattern matches `s` taking `plus` characters for `\+?` and `one`
      characters for `1?` (each 0 or 1), the rest being `\d{9,15}` up to the end. */
  ghost predicate MatchesWith(s: string, plus: nat, one: nat) {
    && plus <= 1 && one <= 1 && plus + one <= |s|
    && (plus == 1 ==> s[0] == '+')
    && (one == 1 ==> s[plus] == '1')
    && AllDigits(s[plus + one..])
    && MIN_DIGITS <= |s| - plus - one <= MAX_DIGITS
  }

  /** The pattern, read as a language: some choice of the two optional parts matches. */
  ghost predicate PhonePattern(s: string) {
    exists plus: nat, one: nat :: MatchesWith(s, plus, one)
  }

  /** The validator, decided without backtracking: a leading '+' is taken if
      present; the rest must be all digits, nine to fifteen of them, or sixteen
      when the first is the optional '1'. */
  function IsValidPhone(s: string): (ok: bool)
    ensures ok ==> |s| >= MIN_DIGITS
  {
    var rest := if |s| > 0 && s[0] == '+' then s[1..] else s;
    && AllDigits(rest)
    && (MIN_DIGITS <= |rest| <= MAX_DIGITS || (|rest| == MAX_DIGITS + 1 && rest[0] == '1'))
  }

  /** The validator accepts exactly the strings the pattern matches. */
  lemma ValidPhoneIffPattern(s: string)
    ensures IsValidPhone(s) <==> PhonePattern(s)
  {
    var hasPlus := |s| > 0 && s[0] == '+';
    var p: nat := if hasPlus then 1 else 0;
    var rest := s[p..];
    if IsValidPhone(s) {
      if MIN_DIGITS <= |rest| <= MAX_DIGITS {
        assert s[p + 0..] == rest;
        assert MatchesWith(s, p, 0);
      } else {
        assert s[p + 1..] == rest[1..];
        assert MatchesWith(s, p, 1);
      }
    }
    if PhonePattern(s) {
      var plus: nat, one: nat :| MatchesWith(s, plus, one);
      assert s[plus + one] == s[plus + one..][0];
      if plus == 0 {
        assert s[0] != '+';
      }
      assert plus == p;
      assert forall i :: 0 <= i < |rest| ==> IsDigit(rest[i]) by {
        forall i | 0 <= i < |rest|
          ensures IsDigit(rest[i])
        {
          if i < one {
            assert rest[i] == s[plus] == '1';
          } else {
            assert rest[i] == s[plus + one..][i - one];
          }
        }
      }
      if one == 1 {
        assert rest[0] == '1';
      }
    }
  }

  /** Whatever the validator accepts consists of digits, apart from at most one
      leading '+', and carries between nine and sixteen of them. */
  lemma AcceptedPhoneShape(s: string)
    requires IsValidPhone(s)
    ensures forall i :: 0 <= i < |s| ==> IsDigit(s[i]) || (i == 0 && s[i] == '+')
    ensures var digits := if s[0] == '+' then |s| - 1 else |s|;
      MIN_DIGITS <= digits <= MAX_DIGITS + 1
  {
    var rest := if |s| > 0 && s[0] == '+' then s[1..] else s;
    forall i | 0 <= i < |s|
      ensures IsDigit(s[i]) || (i == 0 && s[i] == '+')
    {
      if s[0] == '+' && i > 0 {
        assert s[i] == rest[i - 1];
      }
    }
  }

  /** A string with fewer than nine characters, or with a character that is
      neither a digit nor a leading '+', is refused. */
  lemma RejectedPhones(s: string, i: int)
    requires |s| < MIN_DIGITS || (0 <= i < |s| && !IsDigit(s[i]) && !(i == 0 && s[i] == '+'))
    ensures !IsValidPhone(s)
  {
    if IsValidPhone(s) {
      AcceptedPhoneShape(s);
    }
  }

  /** The number used when creating and updating restaurants is accepted. */
  lemma ExamplePhoneAccepted()
    ensures IsValidPhone("00201012345678")
  {
  }

  /** The optional '1' lets a sixteenth digit through, although the
      validator's message says at most fifteen digits are allowed; sixteen
      digits starting with anything else are refused. */
  lemma SixteenDigitsOnlyAfterOne()
    ensures IsValidPhone("+1234567890123456")
    ensures !IsValidPhone("+2234567890123456")
    ensures !IsValidPhone("12345678")
  {
  }
}

=== FILE: pricing.dfy ===
/** Order totals: the sum, over an order's lines, of the referenced
    size-detail row's price times the line's count (`Order.get_total_price`
    as the views and tests use it). */
module Pricing {
  import opened Schema

  /** The current price of a size-detail row. Order lines only ever point at
      existing rows (the foreign key), so the 0 for a missing row is never
      used on a valid store. */
  function PriceOf(details: map<nat, SizeDetail>, pk: nat): int {
    if pk in details then details[pk].price else 0
  }

  /** Price times count, summed over the lines at the given prices. */
  function LinesTotal(details: map<nat, SizeDetail>, lines: seq<LineItem>): int
    decreases |lines|
  {
    if |lines| == 0 then 0
    else PriceOf(details, lines[0].itemSize) * lines[0].count + LinesTotal(details, lines[1..])
  }

  /** Units of the row `pk` ordered across the lines. */
  function UnitsOf(lines: seq<LineItem>, pk: nat): int
    decreases |lines|
  {
    if |lines| == 0 then 0
    else (if lines[0].itemSize == pk then lines[0].count else 0) + UnitsOf(lines[1..], pk)
  }

  /** The total of concatenated lines is the sum of the two totals. */
  lemma {:induction false} LinesTotalAppend(details: map<nat, SizeDetail>, a: seq<LineItem>, b: seq<LineItem>)
    ensures LinesTotal(details, a + b) == LinesTotal(details, a) + LinesTotal(details, b)
    decreases |a|
  {
    assert forall i :: 0 <= i < |a + b| ==> (a + b)[i] == if i < |a| then a[i] else b[i - |a|];
    if |a| == 0 {
      assert a + b == b;
    } else {
      assert (a + b)[1..] == a[1..] + b;
      LinesTotalAppend(details, a[1..], b);
    }
  }

  /** Repricing one row moves a total by the price difference times the units
      of that row on the lines, and by nothing else. */
  lemma {:induction false} LinesTotalReprice(details: map<nat, SizeDetail>, repriced: map<nat, SizeDetail>, lines: seq<LineItem>, pk: nat, price: int)
    requires pk in details && repriced == details[pk := details[pk].(price := price)]
    ensures LinesTotal(repriced, lines) == LinesTotal(details, lines) + (price - details[pk].price) * UnitsOf(lines, pk)
    decreases |lines|
  {
    if |lines| > 0 {
      var l := lines[0];
      var tail := lines[1..];
      var diff := price - details[pk].price;
      var rest := UnitsOf(tail, pk);
      LinesTotalReprice(details, repriced, tail, pk, price);
      assert LinesTotal(repriced, tail) == LinesTotal(details, tail) + diff * rest;
      if l.itemSize == pk {
        assert UnitsOf(lines, pk) == l.count + rest;
        assert diff * (l.count + rest) == diff * l.count + diff * rest;
        assert l.count * (details[pk].price + diff) == l.count * details[pk].price + l.count * diff;
        assert PriceOf(repriced, pk) == details[pk].price + diff;
      } else {
        assert UnitsOf(lines, pk) == rest;
        assert PriceOf(repriced, l.itemSize) == PriceOf(details, l.itemSize);
      }
    }
  }
}

=== FILE: schema.dfy ===
/** The rows of the restaurants app as the initial migration creates them,
    and the order status constants of the `Order` model.

    Primary keys are table keys in `Store.Db`, so rows do not repeat them;
    a foreign key is the `nat` primary key of the referenced row. */
module Schema {
  import opened Errors

  // Order.status values
  const PICKED := 1
  const COOKING := 2
  const READY := 3
  const ONTHEWAY := 4
  const DELIVERED := 5
  const CANCELLED := 6

  /** The choices of the status field, in declaration order, labels as spelled. */
  const STATUS_CHOICES: seq<(int, string)> := [
    (PICKED, "Picked"),
    (COOKING, "Cooking"),
    (READY, "Ready"),
    (ONTHEWAY, "On the way"),
    (DELIVERED, "Delivered"),
    (CANCELLED, "Candelled")
  ]

  /** A status that appears among the choices. */
  predicate IsStatus(s: int) {
    exists i :: 0 <= i < |STATUS_CHOICES| && STATUS_CHOICES[i].0 == s
  }

  /** The six statuses are distinct, listed in increasing order one apart,
      and the last non-cancelled one sits at index len(STATUS_CHOICES) - 1,
      which is what the advance action compares against. */
  lemma StatusChoicesShape()
    ensures |{PICKED, COOKING, READY, ONTHEWAY, DELIVERED, CANCELLED}| == 6
    ensures forall i :: 0 <= i < |STATUS_CHOICES| ==> STATUS_CHOICES[i].0 == i + 1
    ensures |STATUS_CHOICES| - 1 == DELIVERED
    ensures forall s :: IsStatus(s) <==> PICKED <= s <= CANCELLED
  {
    forall s | PICKED <= s <= CANCELLED
      ensures IsStatus(s)
    {
      assert STATUS_CHOICES[s - 1].0 == s;
    }
  }

  // Defaults of the migration
  const DEFAULT_STATUS := PICKED
  const DEFAULT_TOTAL_PRICE := 0
  const DEFAULT_LINE_COUNT := 1

  datatype Category = Category(restaurant: nat, name: string)

  datatype ItemSize = ItemSize(restaurant: nat, name: string)

  datatype Item = Item(restaurant: nat, category: nat, name: string, shortDescription: string)

  /** The price of one item in one size; unique per (item, size). */
  datatype SizeDetail = SizeDetail(item: nat, size: nat, price: int)

  /** An order; `totalPrice` is the stored snapshot, the four stamps are
      set as the status advances. */
  datatype Order = Order(
    customer: nat,
    restaurant: nat,
    address: string,
    status: int,
    totalPrice: int,
    cookedAt: Option<int>,
    readyAt: Option<int>,
    onTheWayAt: Option<int>,
    deliveredAt: Option<int>)

  /** One order line: `count` units of the size-detail row `itemSize`. */
  datatype LineItem = LineItem(order: nat, itemSize: nat, count: int)

  datatype Restaurant = Restaurant(
    owner: nat,
    users: set<nat>,
    name: string,
    phone: string,
    address: string)
}

=== FILE: signals.dfy ===
/** The post_save hook on restaurants: a restaurant saved with no authorised
    users gets its owner as the only one. */
module Signals {
  import opened Schema

  function AddUsersToRestaurant(r: Restaurant): (r': Restaurant)
    ensures r.users == {} ==> r'.users == {r.owner}
    ensures r.users != {} ==> r'.users == r.users
    ensures r' == r.(users := r'.users)
  {
    if |r.users| == 0 && r.owner !in r.users then r.(users := r.users + {r.owner}) else r
  }

  /** The hook only ever adds, always leaves someone authorised, and the owner
      is authorised afterwards exactly when the set was empty or already held it. */
  lemma HookAddsOnly(r: Restaurant)
    ensures r.users <= AddUsersToRestaurant(r).users
    ensures AddUsersToRestaurant(r).users != {}
    ensures r.owner in AddUsersToRestaurant(r).users <==> (r.users == {} || r.owner in r.users)
  {
  }

  /** Saving again runs the hook again to no effect. */
  lemma HookIdempotent(r: Restaurant)
    ensures AddUsersToRestaurant(AddUsersToRestaurant(r)) == AddUsersToRestaurant(r)
  {
  }
}

=== FILE: store.dfy ===
/** The restaurants tables as the initial migration declares them, held in
    memory: one map per table keyed by the auto-increment primary key (with
    the next key to hand out), and the order lines as a sequence in insertion
    order. `Valid` collects the constraints the database enforces:
    unique_together on (item, size), (name, restaurant) for sizes and
    categories, and every foreign key pointing at an existing row. The delete
    operations follow the on_delete rules: CASCADE removes dependants, PROTECT
    refuses with a ProtectedError before anything is removed. */
module Store {
  import opened Errors
  import opened Schema

  datatype Db = Db(
    categories: map<nat, Category>, nextCategory: nat,
    itemSizes: map<nat, ItemSize>, nextItemSize: nat,
    items: map<nat, Item>, nextItem: nat,
    sizeDetails: map<nat, SizeDetail>, nextSizeDetail: nat,
    orders: map<nat, Order>, nextOrder: nat,
    lines: seq<LineItem>)

  /** The store after an operation, with what the operation returned or raised;
      a raised error does not undo the writes made before it. */
  datatype Outcome<+T> = Outcome(store: Db, result: Result<T>)

  /** Empty tables; auto-increment keys start at 1. */
  const EMPTY: Db := Db(map[], 1, map[], 1, map[], 1, map[], 1, map[], 1, [])

  predicate KeysBelow<V>(m: map<nat, V>, next: nat) {
    forall k :: k in m ==> k < next
  }

  // Categories and item sizes are distinct row types with the same
  // (name, restaurant) constraint, so each table has its own predicate.
  predicate UniqueCategoryNames(m: map<nat, Category>) {
    forall a, b :: a in m && b in m && m[a].restaurant == m[b].restaurant && m[a].name == m[b].name ==> a == b
  }

  predicate UniqueItemSizeNames(m: map<nat, ItemSize>) {
    forall a, b :: a in m && b in m && m[a].restaurant == m[b].restaurant && m[a].name == m[b].name ==> a == b
  }

  /** unique_together = (item, size) */
  predicate UniqueSizeDetails(m: map<nat, SizeDetail>) {
    forall a, b :: a in m && b in m && m[a].item == m[b].item && m[a].size == m[b].size ==> a == b
  }

  predicate ItemsReferenceCategories(db: Db) {
    forall k :: k in db.items ==> db.items[k].category in db.categories
  }

  predicate SizeDetailsReferenceRows(db: Db) {
    forall k :: k in db.sizeDetails ==> db.sizeDetails[k].item in db.items && db.sizeDetails[k].size in db.itemSizes
  }

  predicate LinesReferenceRows(db: Db) {
    forall i :: 0 <= i < |db.lines| ==> db.lines[i].order in db.orders && db.lines[i].itemSize in db.sizeDetails
  }

  predicate Valid(db: Db) {
    && KeysBelow(db.categories, db.nextCategory)
    && KeysBelow(db.itemSizes, db.nextItemSize)
    && KeysBelow(db.items, db.nextItem)
    && KeysBelow(db.sizeDetails, db.nextSizeDetail)
    && KeysBelow(db.orders, db.nextOrder)
    && UniqueCategoryNames(db.categories)
    && UniqueItemSizeNames(db.itemSizes)
    && UniqueSizeDetails(db.sizeDetails)
    && ItemsReferenceCategories(db)
    && SizeDetailsReferenceRows(db)
    && LinesReferenceRows(db)
  }

  lemma EmptyIsValid()
    ensures Valid(EMPTY)
  {
  }

  // ---------------------------------------------------------------- inserts

  /** Creating a category; the (name, restaurant) constraint refuses a
      second category of the same name in one restaurant. */
  function InsertCategory(db: Db, c: Category): (r: Result<(Db, nat)>)
    requires Valid(db)
    ensures r.Ok? <==> forall k :: k in db.categories ==> !(db.categories[k].restaurant == c.restaurant && db.categories[k].name == c.name)
    ensures r.Err? ==> r.error == IntegrityError
    ensures r.Ok? ==> var (d, pk) := r.value;
      && Valid(d) && pk !in db.categories
      && d.categories == db.categories[pk := c]
      && d == db.(categories := d.categories, nextCategory := d.nextCategory)
  {
    if exists k :: k in db.categories && db.categories[k].restaurant == c.restaurant && db.categories[k].name == c.name then
      Err(IntegrityError)
    else
      var pk := db.nextCategory;
      Ok((db.(categories := db.categories[pk := c], nextCategory := pk + 1), pk))
  }

  /** Creating an item size; names are unique per restaurant as for categories. */
  function InsertItemSize(db: Db, s: ItemSize): (r: Result<(Db, nat)>)
    requires Valid(db)
    ensures r.Ok? <==> forall k :: k in db.itemSizes ==> !(db.itemSizes[k].restaurant == s.restaurant && db.itemSizes[k].name == s.name)
    ensures r.Err? ==> r.error == IntegrityError
    ensures r.Ok? ==> var (d, pk) := r.value;
      && Valid(d) && pk !in db.itemSizes
      && d.itemSizes == db.itemSizes[pk := s]
      && d == db.(itemSizes := d.itemSizes, nextItemSize := d.nextItemSize)
  {
    if exists k :: k in db.itemSizes && db.itemSizes[k].restaurant == s.restaurant && db.itemSizes[k].name == s.name then
      Err(IntegrityError)
    else
      var pk := db.nextItemSize;
      Ok((db.(itemSizes := db.itemSizes[pk := s], nextItemSize := pk + 1), pk))
  }

  /** `ItemSizeDetails.objects.create(...)`: refused when the item already
      has a price for that size. */
  function InsertSizeDetail(db: Db, row: SizeDetail): (r: Result<(Db, nat)>)
    requires Valid(db)
    requires row.item in db.items && row.size in db.itemSizes
    ensures r.Ok? <==> forall k :: k in db.sizeDetails ==> !(db.sizeDetails[k].item == row.item && db.sizeDetails[k].size == row.size)
    ensures r.Err? ==> r.error == IntegrityError
    ensures r.Ok? ==> var (d, pk) := r.value;
      && Valid(d) && pk !in db.sizeDetails
      && d.sizeDetails == db.sizeDetails[pk := row]
      && d == db.(sizeDetails := d.sizeDetails, nextSizeDetail := d.nextSizeDetail)
  {
    if exists k :: k in db.sizeDetails && db.sizeDetails[k].item == row.item && db.sizeDetails[k].size == row.size then
      Err(IntegrityError)
    else
      var pk := db.nextSizeDetail;
      Ok((db.(sizeDetails := db.sizeDetails[pk := row], nextSizeDetail := pk + 1), pk))
  }

  /** Creating an item; items carry no uniqueness constraint, so this
      always succeeds, and a fresh item has no size-detail rows yet. */
  function InsertItem(db: Db, item: Item): (r: (Db, nat))
    requires Valid(db) && item.category in db.categories
    ensures Valid(r.0) && r.1 !in db.items
    ensures r.0.items == db.items[r.1 := item]
    ensures forall k :: k in db.sizeDetails ==> db.sizeDetails[k].item != r.1
    ensures r.0 == db.(items := r.0.items, nextItem := r.0.nextItem)
  {
    var pk := db.nextItem;
    (db.(items := db.items[pk := item], nextItem := pk + 1), pk)
  }

  /** Creating an order; orders carry no uniqueness constraint, so this
      always succeeds, and a fresh order has no lines yet. */
  function InsertOrder(db: Db, o: Order): (r: (Db, nat))
    requires Valid(db)
    ensures Valid(r.0) && r.1 !in db.orders
    ensures r.0.orders == db.orders[r.1 := o]
    ensures forall i :: 0 <= i < |db.lines| ==> db.lines[i].order != r.1
    ensures r.0 == db.(orders := r.0.orders, nextOrder := r.0.nextOrder)
  {
    var pk := db.nextOrder;
    (db.(orders := db.orders[pk := o], nextOrder := pk + 1), pk)
  }

  /** Saving an existing item's row with new field values. */
  function SaveItem(db: Db, id: nat, item: Item): (d: Db)
    requires Valid(db) && id in db.items && item.category in db.categories
    ensures Valid(d)
    ensures d.items == db.items[id := item]
    ensures d == db.(items := d.items)
  {
    db.(items := db.items[id := item])
  }

  /** Saving a size-detail row with a new price; nothing else moves. */
  function UpdatePrice(db: Db, pk: nat, price: int): (d: Db)
    requires pk in db.sizeDetails
    ensures Valid(db) ==> Valid(d)
    ensures d.sizeDetails.Keys == db.sizeDetails.Keys
    ensures d.sizeDetails[pk].price == price
    ensures d.sizeDetails[pk].item == db.sizeDetails[pk].item && d.sizeDetails[pk].size == db.sizeDetails[pk].size
    ensures forall k :: k in db.sizeDetails && k != pk ==> d.sizeDetails[k] == db.sizeDetails[k]
    ensures d == db.(sizeDetails := d.sizeDetails)
  {
    db.(sizeDetails := db.sizeDetails[pk := db.sizeDetails[pk].(price := price)])
  }

  /** Saving one existing order's row. */
  function SaveOrder(db: Db, id: nat, o: Order): (d: Db)
    requires Valid(db) && id in db.orders
    ensures Valid(d)
    ensures d.orders.Keys == db.orders.Keys && d.orders[id] == o
    ensures forall k :: k in db.orders && k != id ==> d.orders[k] == db.orders[k]
    ensures d == db.(orders := d.orders)
  {
    db.(orders := db.orders[id := o])
  }

  /** Replacing the order-line table by lines that point at existing rows. */
  function SaveLines(db: Db, lines: seq<LineItem>): (d: Db)
    requires Valid(db)
    requires forall i :: 0 <= i < |lines| ==> lines[i].order in db.orders && lines[i].itemSize in db.sizeDetails
    ensures Valid(d) && d.lines == lines
    ensures d == db.(lines := d.lines)
  {
    db.(lines := lines)
  }

  // ---------------------------------------------------------------- order lines

  /** The lines whose order is `order` (`belongs`) or is not (`!belongs`), in
      table order. */
  function Select(lines: seq<LineItem>, order: nat, belongs: bool): (r: seq<LineItem>)
    ensures |r| <= |lines|
    ensures forall i :: 0 <= i < |r| ==> (r[i].order == order) == belongs
    decreases |lines|
  {
    if |lines| == 0 then []
    else if (lines[0].order == order) == belongs then [lines[0]] + Select(lines[1..], order, belongs)
    else Select(lines[1..], order, belongs)
  }

  /** The rows of one order, as `order.orders_details` lists them. */
  function LinesOf(db: Db, order: nat): seq<LineItem> {
    Select(db.lines, order, true)
  }

  lemma {:induction false} SelectAppend(a: seq<LineItem>, b: seq<LineItem>, order: nat, belongs: bool)
    ensures Select(a + b, order, belongs) == Select(a, order, belongs) + Select(b, order, belongs)
    decreases |a|
  {
    if |a| > 0 {
      assert (a + b)[1..] == a[1..] + b;
      SelectAppend(a[1..], b, order, belongs);
    } else {
      assert a + b == b;
    }
  }

  /** Selecting keeps exactly the qualifying lines: nothing is invented and
      nothing that qualifies is dropped. */
  lemma {:induction false} SelectMembers(lines: seq<LineItem>, order: nat, belongs: bool)
    ensures forall x :: x in Select(lines, order, belongs) <==> x in lines && (x.order == order) == belongs
    decreases |lines|
  {
    if |lines| > 0 {
      SelectMembers(lines[1..], order, belongs);
      assert forall x :: x in lines <==> x == lines[0] || x in lines[1..];
    }
  }

  /** Selecting keeps a sequence whole when every element qualifies, and
      empties it when none does. */
  lemma {:induction false} SelectUniform(lines: seq<LineItem>, order: nat, belongs: bool)
    ensures (forall i :: 0 <= i < |lines| ==> (lines[i].order == order) == belongs) ==> Select(lines, order, belongs) == lines
    ensures (forall i :: 0 <= i < |lines| ==> (lines[i].order == order) != belongs) ==> Select(lines, order, belongs) == []
    decreases |lines|
  {
    if |lines| > 0 {
      SelectUniform(lines[1..], order, belongs);
      if forall i :: 0 <= i < |lines| ==> (lines[i].order == order) == belongs {
        assert forall i :: 0 <= i < |lines[1..]| ==> lines[1..][i] == lines[i + 1];
        assert [lines[0]] + lines[1..] == lines;
      }
      if forall i :: 0 <= i < |lines| ==> (lines[i].order == order) != belongs {
        assert forall i :: 0 <= i < |lines[1..]| ==> lines[1..][i] == lines[i + 1];
      }
    }
  }

  /** Dropping an order's lines again after appending new lines of that
      order gives back the lines of the other orders. */
  lemma {:induction false} SelectDropsAppended(lines: seq<LineItem>, added: seq<LineItem>, order: nat)
    requires forall i :: 0 <= i < |added| ==> added[i].order == order
    ensures Select(Select(lines, order, false) + added, order, false) == Select(lines, order, false)
  {
    var others := Select(lines, order, false);
    SelectAppend(others, added, order, false);
    SelectUniform(added, order, false);
    SelectUniform(others, order, false);
    assert others + [] == others;
  }

  /** Dropping the lines of one order leaves the lines of every other order as they were. */
  lemma {:induction false} SelectOtherOrder(lines: seq<LineItem>, dropped: nat, order: nat)
    requires order != dropped
    ensures Select(Select(lines, dropped, false), order, true) == Select(lines, order, true)
    ensures Select(Select(lines, dropped, false), dropped, false) == Select(lines, dropped, false)
    decreases |lines|
  {
    if |lines| > 0 {
      SelectOtherOrder(lines[1..], dropped, order);
      if lines[0].order != dropped {
        assert Select(lines, dropped, false) == [lines[0]] + Select(lines[1..], dropped, false);
        assert ([lines[0]] + Select(lines[1..], dropped, false))[1..] == Select(lines[1..], dropped, false);
      }
    }
  }

  // ---------------------------------------------------------------- deletes

  /** The rows among `doomed` that some order line refers to. */
  function ReferencedRows(lines: seq<LineItem>, doomed: set<nat>): (s: set<nat>)
    ensures forall k :: k in s <==> k in doomed && exists i :: 0 <= i < |lines| && lines[i].itemSize == k
  {
    set i | 0 <= i < |lines| && lines[i].itemSize in doomed :: lines[i].itemSize
  }

  /** Deleting a set of size-detail rows: order lines PROTECT them, so the
      delete is refused as a whole when any of them is still ordered. */
  function DeleteSizeDetails(db: Db, doomed: set<nat>): (r: Result<Db>)
    requires Valid(db)
    ensures r.Err? <==> exists i :: 0 <= i < |db.lines| && db.lines[i].itemSize in doomed
    ensures r.Err? ==> r.error == ProtectedError(ReferencedRows(db.lines, doomed)) && ReferencedRows(db.lines, doomed) != {}
    ensures r.Ok? ==> && Valid(r.value)
                      && r.value.sizeDetails.Keys == db.sizeDetails.Keys - doomed
                      && (forall k :: k in r.value.sizeDetails ==> r.value.sizeDetails[k] == db.sizeDetails[k])
                      && r.value == db.(sizeDetails := r.value.sizeDetails)
  {
    var protected := ReferencedRows(db.lines, doomed);
    if protected != {} then
      Err(ProtectedError(protected))
    else
      assert forall i :: 0 <= i < |db.lines| ==> db.lines[i].itemSize !in doomed;
      Ok(db.(sizeDetails := db.sizeDetails - doomed))
  }

  /** The size-detail rows whose item is `item`. */
  function RowsOfItem(m: map<nat, SizeDetail>, item: nat): (s: set<nat>)
    ensures forall k :: k in s <==> k in m && m[k].item == item
  {
    set k | k in m && m[k].item == item
  }

  /** The size-detail rows whose size is `size`: the CASCADE set of an item
      size, as `RowsOfItem` is that of an item. */
  function RowsOfSize(m: map<nat, SizeDetail>, size: nat): (s: set<nat>)
    ensures forall k :: k in s <==> k in m && m[k].size == size
  {
    set k | k in m && m[k].size == size
  }

  /** Deleting an item CASCADEs to its size-detail rows, which order lines
      PROTECT. */
  function DeleteItem(db: Db, id: nat): (r: Result<Db>)
    requires Valid(db)
    ensures r.Err? <==> exists i :: 0 <= i < |db.lines| && db.sizeDetails[db.lines[i].itemSize].item == id
    ensures r.Err? ==> r.error.ProtectedError?
    ensures r.Ok? ==> && Valid(r.value)
                      && r.value.items == db.items - {id}
                      && r.value.sizeDetails.Keys == db.sizeDetails.Keys - RowsOfItem(db.sizeDetails, id)
                      && r.value == db.(items := r.value.items, sizeDetails := r.value.sizeDetails)
  {
    match DeleteSizeDetails(db, RowsOfItem(db.sizeDetails, id))
    case Err(e) => Err(e)
    case Ok(d) => Ok(d.(items := d.items - {id}))
  }

  /** Deleting an item size CASCADEs to the size-detail rows priced in it,
      which order lines PROTECT. */
  function DeleteItemSize(db: Db, id: nat): (r: Result<Db>)
    requires Valid(db)
    ensures r.Err? <==> exists i :: 0 <= i < |db.lines| && db.sizeDetails[db.lines[i].itemSize].size == id
    ensures r.Err? ==> r.error.ProtectedError?
    ensures r.Ok? ==> && Valid(r.value)
                      && r.value.itemSizes == db.itemSizes - {id}
                      && r.value.sizeDetails.Keys == db.sizeDetails.Keys - RowsOfSize(db.sizeDetails, id)
                      && r.value == db.(itemSizes := r.value.itemSizes, sizeDetails := r.value.sizeDetails)
  {
    match DeleteSizeDetails(db, RowsOfSize(db.sizeDetails, id))
    case Err(e) => Err(e)
    case Ok(d) => Ok(d.(itemSizes := d.itemSizes - {id}))
  }

  /** Deleting a category that an item still uses is refused (PROTECT). */
  function DeleteCategory(db: Db, id: nat): (r: Result<Db>)
    requires Valid(db)
    ensures r.Err? <==> exists k :: k in db.items && db.items[k].category == id
    ensures r.Err? ==> r.error.ProtectedError?
    ensures r.Ok? ==> Valid(r.value) && r.value == db.(categories := db.categories - {id})
  {
    var users := set k | k in db.items && db.items[k].category == id;
    if users != {} then Err(ProtectedError(users))
    else
      assert forall k :: k in db.items ==> k in users || db.items[k].category != id;
      Ok(db.(categories := db.categories - {id}))
  }

  /** Deleting an order CASCADEs to its lines; the lines of other orders stay
      in place. */
  function DeleteOrder(db: Db, id: nat): (d: Db)
    requires Valid(db)
    ensures Valid(d)
    ensures d.orders == db.orders - {id}
    ensures LinesOf(d, id) == []
    ensures forall o :: o != id ==> LinesOf(d, o) == LinesOf(db, o)
    ensures d == db.(orders := d.orders, lines := d.lines)
  {
    var d := db.(orders := db.orders - {id}, lines := Select(db.lines, id, false));
    SelectMembers(db.lines, id, false);
    SelectUniform(d.lines, id, true);
    forall o | o != id
      ensures LinesOf(d, o) == LinesOf(db, o)
    {
      SelectOtherOrder(db.lines, id, o);
    }
    d
  }
}
